=== FILE: README.md ===
# log.cc in Dafny

A model of log.cc, an in-process C++ logging library. Loggers filter
records by level and render each one with `std::format`. The asynchronous
loggers hand records to a log core, and the core's single worker thread
writes them to the file appenders and the console.

The model covers these parts of the library:

- **Levels** (`levels.dfy`). The six-level `LogLevel::T` enum, its `toString`
  and the lookup tables of names, short names and terminal colours
  (`src/log_level.h`, `src/log_level.cpp`, and the same tables under other
  names in `src/log.cpp`).
- **Legacy levels** (`legacy_levels.dfy`). The older seven-level header
  `src/include/log.cc/level.h`: the global `LOG_LEVEL`, `LogLevelStrings` and
  `get_terminal_color`.
- **Message queue** (`message_queue.dfy`). The FIFO queue shared by producers
  and the worker, with its shutdown flag. `pop` is modelled as written: once
  shutdown is set it removes the front record and still reports false.
- **Appenders** (`appenders.dfy`). Console and file appenders as actions on
  one ordered I/O trace. What each sink received is a projection of that
  trace.
- **Flush policy** (`flush_policy.dfy`). The worker's ten-second flush task.
  The gap is a `std::size_t` in `AsyncLogControl` and an `int` in `LogCore`,
  and each type's wrap-around is modelled.
- **Log core** (`log_core.dfy`). `AsyncLogControl` and `LogCore` as a state
  machine over interleaved events: `run()`, a push, `shutdown()` and one
  worker iteration at a given time. It proves FIFO delivery to every sink,
  the loss of buffered records on shutdown, and drain-on-shutdown under the
  corrected pop.
- **Formatting** (`formatting.dfy`). `Config`, the `CategoryFormatter`
  templates and a model of `std::format`'s `{}` substitution, so the shape
  of every rendered line is derived rather than assumed.
- **Loggers** (`loggers.dfy`). The front doors: `AsyncLogger::log` and
  `Logger::log`, which filter, format and push, and `SyncLogger::log`, which
  writes straight to its appenders.
- **Mirror logger** (`mirror_logger.dfy`). The `Logger` of `src/log.cpp`:
  `log`, `logWithCategory` and `doLog`, which also echoes to standard output.

Shutdown is meant to drain the queue before the worker exits. The code of
both queue variants loses a buffered record instead. The model follows the
code and records the gap under Findings, together with a corrected pop for
which drain-on-shutdown is proved.

## Model

| member | source | states |
|---|---|---|
| Levels.FromValue | src/log_level.h:17-25 | decoding an integer gives the enumerator with that value, or None exactly when no enumerator carries it |
| Levels.ValueRoundTrip | src/log_level.h:17-25 | every level's numeric value decodes back to that level |
| Levels.ValuesAreDistinctHundreds | src/log_level.h:19-24 | the values are multiples of 100 from 100 to 600, and different levels have different values |
| Levels.ToString | src/log_level.cpp:11-29 | every enumerator has a case in the switch, so its name is a capitalised word of four or five letters and never the "Unknown" fallback |
| Levels.BelowIsStrictTotalOrder | src/log_level.h:17-25 | comparing values is a strict total order with Debug < Trace < Info < Warn < Error < Fatal, Debug least and Fatal greatest |
| Levels.LevelFromName | src/log_level.cpp:11-29 | parsing a name returns only a level whose toString is that name |
| Levels.ToStringRoundTrip | src/log_level.cpp:11-29 | toString is injective, and parsing its output recovers the level |
| Levels.ToStringFallback | src/log_level.cpp:27-28 | in a build with NDEBUG, "Unknown" is returned exactly for values outside the enum, and no level is named "Unknown" |
| Levels.NamesHaveNoBracket | src/log_level.cpp:14-25 | no level name contains ']', and every name has at least four characters |
| Levels.ColorOrdinalsConsecutive | src/log_level.h:30-41 | the colours are numbered 0 to 7 in declaration order, and ColorCount is 8 |
| Levels.TablesAreTotal | src/log_level.cpp:32-85 | every level is a key of all four level tables and every colour a key of the colour table, so each find()->second lookup hits |
| Levels.ColorCode | src/log_level.cpp:78-85 | a level's colour code is a five-character escape sequence from the colour table, and it is never the reset code |
| Levels.ColorCodeIsComposition | src/log_level.cpp:71-85 | level2TerminalColorCode is the composition of level2TerminalColor with color2TerminalColorCode |
| Levels.LevelColors | src/log_level.cpp:62-69 | Debug is Cyan, Trace White, Info Green, Warn Yellow, and Error and Fatal Red; only Error and Fatal share a colour, and no level uses Reset |
| Levels.ColorCodeRoundTrip | src/log_level.cpp:50-59 | decoding a colour's escape code gives back the colour |
| Levels.ColorCodesDistinct | src/log_level.cpp:50-59 | different colours have different escape codes |
| Levels.Level2StringsIsUpperName | src/log_level.cpp:32-39 | the long name is toString in capitals for every level except Info, which stays "Info" |
| Levels.CompactIsFirstLetter | src/log_level.cpp:40-47 | the compact name is the first letter of both toString and the long name |
| Levels.DeclaredExamplesHold | src/log_level.h:43-45 | the examples in the declarations hold: Debug maps to "DEBUG" and "D", and Reset to ESC "[0m" |
| LegacyLevels.ValuesStrictlyIncrease | src/include/log.cc/level.h:21-35 | the seven values increase strictly in declaration order and are pairwise distinct |
| LegacyLevels.LevelStringsComplete | src/include/log.cc/level.h:41-51 | every legacy level has a string, and no two levels share one |
| LegacyLevels.TerminalColorOfLevels | src/include/log.cc/level.h:66-92 | the colour returned for each of the seven levels, with PureError magenta and Warn found under the "yello" key |
| LegacyLevels.TerminalColorDefault | src/include/log.cc/level.h:68 | a value outside the enum gets the initial white |
| LegacyLevels.GetTerminalColor | src/include/log.cc/level.h:66-92 | every value gets a non-empty code from the colour table, since each key the switch looks up is present |
| LegacyLevels.SetLogLevel | src/include/log.cc/level.h:38-39 | after SetLogLevel the global level is the level given |
| LegacyLevels.SetLogLevelLastWins | src/include/log.cc/level.h:38-39 | of two calls to SetLogLevel the last one wins, setting the current level changes nothing, and the initial level is Debug |
| MessageQueue.Push | src/log.h:153-158 | push appends the record at the back and leaves the shutdown flag alone |
| MessageQueue.PushMessage | src/include/log.cc/log.h:58-75 | pushing a message at a level appends exactly that record |
| MessageQueue.Shutdown | src/log.h:184-189 | shutdown sets the flag and keeps every buffered record |
| MessageQueue.ShutdownIdempotent | src/include/log.cc/log.h:108-113 | a second shutdown changes nothing |
| MessageQueue.Pop | src/log.h:160-181 | pop reports true exactly when shutdown is not set; it takes the front record when there is one, including after shutdown |
| MessageQueue.PopDraining | src/include/log.cc/log.h:84-105 | the corrected pop reports true exactly when a record was taken, and takes the front one |
| MessageQueue.PopsAgreeBeforeShutdown | src/include/log.cc/log.h:91-104 | before shutdown the as-written pop and the corrected pop behave the same |
| MessageQueue.PushKeepsFront | src/log.h:153-181 | pushing onto a non-empty queue changes neither the record popped next nor the order behind it |
| MessageQueue.PushAll | src/log.h:153-158 | pushing a sequence appends it in order |
| MessageQueue.PopN | src/log.h:178-180 | n pops before shutdown take the first n records and leave the rest |
| MessageQueue.FifoOrder | src/log.h:153-181 | popping everything after a series of pushes yields the buffered records and then the pushed ones, in order, and leaves the queue empty |
| Appenders.ConsoleLine | src/log.h:56-61 | the console writes the level's five-character colour code, then the message, then the reset code |
| Appenders.ConsoleLineDecodes | src/include/log.cc/log.h:131-136 | the colour prefix of a console line decodes to the record's colour, and the middle is the message |
| Appenders.FanOut | src/log.h:236-238 | one delivery writes the message to each file appender in registry order, one write per file |
| Appenders.FanOutWrites | src/log.h:113-116 | a fan-out adds the message once to each registered file and nothing to the console or to unregistered files |
| Appenders.ConsoleThenFanOut | src/log.h:347-353 | a synchronous log call adds the line to the console and the message to each registered file, and nothing elsewhere |
| Appenders.FanOutFlushesNothing | src/log.h:113-116 | writing to the files does not flush them |
| Appenders.FlushAll | src/log.h:222-226 | a due flush flushes every file appender in registry order, one flush per file |
| Appenders.FlushAllEffect | src/include/log.cc/log.h:245-248 | flushing all files flushes each registered file exactly once and writes nothing |
| FlushPolicy.ToSizeT | src/log.h:220 | storing the seconds count in a std::size_t gives the value in [0, 2^64) congruent to it modulo 2^64, so counts in range are unchanged and a negative count wraps |
| FlushPolicy.ToInt32 | src/include/log.cc/log.h:243 | storing it in an int gives the value in [-2^31, 2^31) congruent to it modulo 2^32, so counts in range are unchanged |
| FlushPolicy.FlushTask | src/log.h:218-229 | the first run only initialises last and never flushes; later runs flush exactly when the gap reaches ten seconds, and last moves only on a flush |
| FlushPolicy.FlushDueForward | src/include/log.cc/log.h:241-251 | with a forward clock and gaps below 2^31 seconds, a flush happens exactly when at least ten seconds have passed, whichever type holds the gap |
| FlushPolicy.BackwardClock | src/log.h:220-221 | a clock stepping back one second triggers a flush with the std::size_t gap but not with the int gap |
| FlushPolicy.FlushesAreSpaced | src/log.h:216-228 | along a non-decreasing clock, successive flushes are at least ten seconds apart, and the first comes at least ten seconds after last or after the first run |
| FlushPolicy.FirstRunNeverFlushes | src/log.h:219 | the first run of the flush task never flushes |
| LogCore.AddFileAppender | src/log.h:255-260 | registering a file appends it to the registry and changes nothing else: queue, trace, worker, flush state and gap type are kept |
| LogCore.CorePush | src/include/log.cc/log.h:269-272 | the core's push appends one record with the given level and message, and leaves the trace, the registry, the worker, the flush task's `last` and the gap type alone |
| LogCore.PopWith | src/include/log.cc/log.h:84-105 | whichever pop the worker uses, a true answer means the front record was taken and the rest is left in order |
| LogCore.Delivery | src/include/log.cc/log.h:258-262 | one delivery writes the message to every file in order and then the coloured line to the console |
| LogCore.Step | src/log.h:232-244 | a worker iteration either ends the loop with nothing written, or delivers the front record and then runs the flush task, keeping its last |
| LogCore.Apply | src/log.h:205-253 | run() starts an idle worker; a push appends one record; shutdown() sets the flag and keeps the records; a worker tick that cannot pop changes nothing; only ticks write, and the trace only grows |
| LogCore.Run | src/log.h:232-244 | any sequence of events keeps the registry and gap type and only appends to the output trace |
| LogCore.DeliveryWrites | src/log.h:236-242 | one iteration adds exactly the record's line to the console and its message to each registered file, and the flushes write nothing |
| LogCore.FreshCoreConsistent | src/log.h:192-203 | a new core with an empty queue and no output satisfies the delivery invariant |
| LogCore.DeliveredConsistent | src/log.h:234-243 | a delivering iteration keeps the delivery invariant and writes one more console line |
| LogCore.StepConsistent | src/include/log.cc/log.h:254-266 | every worker iteration keeps the delivery invariant |
| LogCore.PushConsistent | src/log.h:247-253 | a push keeps the delivery invariant and extends the history by the pushed record |
| LogCore.ApplyConsistent | src/include/log.cc/log.h:236-272 | run(), a push, shutdown() and a worker iteration each keep the invariant, with a push extending the history |
| LogCore.RunConsistent | src/include/log.cc/log.h:236-272 | any interleaving of events keeps the invariant relative to the records pushed |
| LogCore.FifoDelivery | src/log.h:232-253 | from a fresh core, the console and every file hold a prefix of the logged records, in logging order, with nothing duplicated or reordered |
| LogCore.ExitedIsFinal | src/log.h:234 | once the loop has returned, nothing more is written or flushed |
| LogCore.ShutdownDropsBuffered | src/log.h:172-176 | with shutdown set and records waiting, the next iteration ends the loop without writing, so a logged record never reaches any sink |
| LogCore.ShutdownLossExample | src/include/log.cc/log.h:96-100 | one file, one Warn record, then shutdown: the as-written pop writes it nowhere and the draining pop writes it to the file |
| LogCore.DrainingDeliversAll | src/include/log.cc/log.h:84-105 | with the corrected pop, once shutdown is set, one more iteration than there are buffered records delivers every pushed record to every sink and ends the loop |
| Formatting.SetLogLevel | src/log.cpp:93-96 | setLogLevel replaces logLevel and keeps logDetailLevel |
| Formatting.SetLogDetailLevel | src/log.cpp:98-101 | setLogDetailLevel replaces logDetailLevel and keeps logLevel |
| Formatting.SettersCommute | src/log.cpp:93-101 | the two setters commute and together determine the whole config |
| Formatting.DefaultConfigBehaviour | src/include/log.cc/log.h:118-119 | the default config filters nothing and renders in detail exactly Warn, Error and Fatal |
| Formatting.DetailedCategoryLine | src/include/log.cc/log.h:189-197 | the detailed category template renders as "[level]\tcategory\tfile:line:column [function]: msg\n" |
| Formatting.CompactCategoryLine | src/include/log.cc/log.h:201-205 | the compact category template "[{}] {}{}\n" fills its three holes with the first three arguments and ignores any further ones |
| Formatting.DetailedLine | src/log.cpp:125-133 | the detailed template renders as "[level]\tfile:line:column [function]: msg\n" |
| Formatting.CompactLine | src/log.cpp:138-143 | the compact template renders as "[level]\tmsg\n" |
| Formatting.CategoryFormat | src/include/log.cc/log.h:182-210 | CategoryFormatter always accepts; at or above logDetailLevel it renders the detailed line, below it "[level] category msg" with no separator between category and message |
| Formatting.CategoryLineLabelAndMessage | src/include/log.cc/log.h:188-206 | in both modes the rendered line opens with the level's name in brackets and ends with the message and a newline |
| Formatting.CategoryFormatOverwrites | src/include/log.cc/log.h:189-201 | the line does not depend on what the output buffer held before |
| Loggers.Submit | src/log.h:302-311 | a record below logLevel is dropped before formatting; otherwise it is queued exactly when the formatter accepts, at the call's level and with the formatter's output |
| Loggers.NewAsyncLogger | src/log.h:302-308 | a new AsyncLogger has the default config and starts formatting into an empty string |
| Loggers.NewCoreLogger | src/include/log.cc/log.h:314 | a new Logger has the default config and starts formatting into 512 NUL characters |
| Loggers.QueueLog | src/include/log.cc/log.h:309-318 | Logger::log pushes exactly one record when the level passes and the formatter accepts; otherwise the core is unchanged; it never touches the trace, registry, worker, `last` or gap type |
| Loggers.QueueLogAll | src/include/log.cc/log.h:309-318 | a run of log calls touches only the queue: trace, registry, worker, shutdown flag, the flush task's `last` and the gap type are unchanged |
| Loggers.QueueLogAllAppends | src/include/log.cc/log.h:309-318 | a series of log calls appends exactly the accepted records, in call order |
| Loggers.Accepted | src/include/log.cc/log.h:311-316 | the accepted records are at most as many as the calls, and none is below logLevel |
| Loggers.CategoryFormatterQueuesUnfiltered | src/include/log.cc/log.h:209 | with a CategoryFormatter every call at or above logLevel is queued, as its rendered line |
| Loggers.FilterScenario | src/log.h:302-311 | with logLevel Info, logging Debug, Warn and Error queues exactly Warn then Error, labelled with their levels and ending with their messages |
| Loggers.SyncLog | src/log.h:330-361 | below logLevel nothing is written; otherwise the trace gains, after what it held, the coloured console line and then one write of the formatter's text to each file appender in order, whatever the formatter answered |
| Loggers.SyncRecord | src/log.h:339-348 | SyncLogger's record carries the call's level, and when the formatter accepts it is the record a queueing logger with the same formatter would push |
| Loggers.SyncLogIgnoresVerdict | src/log.h:339-340 | two SyncLoggers whose formatters leave the same text but answer differently write the same trace |
| Loggers.SyncLogWrites | src/log.h:347-353 | one SyncLogger call adds its line to the console and its message to each registered file |
| Loggers.RejectedFormatVerdicts | src/log.h:308-353 | when the formatter refuses, the queueing logger pushes nothing but SyncLogger still adds the line to the console and the text to every registered file |
| MirrorLogger.StdoutText | src/log.cpp:192-197 | the echo is the colour code, the message up to its first NUL (msg.data()), then the reset code |
| MirrorLogger.StdoutTextWhole | src/log.cpp:196 | a message without NUL characters is echoed whole |
| MirrorLogger.DoLog | src/log.cpp:189-198 | doLog pushes the message at Info, the default push level, whatever the record's level, and echoes it in the record's colour when bToStdOut is set |
| MirrorLogger.DoLogKeepingLevel | src/log.cpp:189-198 | the corrected doLog appends the message at the record's own level and echoes it exactly as doLog does |
| MirrorLogger.DoLogQueuesAtInfo | src/log.cpp:191 | a Warn record is queued as Info, whose console colour differs from Warn's |
| MirrorLogger.Send | src/log.cpp:189-198 | the as-written and level-keeping dispatches differ only in the level queued |
| MirrorLogger.LogLine | src/log.cpp:122-144 | Logger::log renders the detailed line at or above logDetailLevel and "[level]\tmsg\n" below it |
| MirrorLogger.Log | src/log.cpp:105-147 | nothing is queued or echoed below logLevel; otherwise exactly the rendered line is queued, and doLog (`src/log.cpp:189-198`) echoes it to stdout in the level's colour when bToStdOut is set |
| MirrorLogger.LogLineLabelAndMessage | src/log.cpp:125-143 | the rendered line opens with the level's name in brackets and ends with the message |
| MirrorLogger.CategoryLineAsWritten | src/log.cpp:165-183 | the compact branch renders "[colour] level category\n": the colour code fills the label, and the message is dropped |
| MirrorLogger.LogWithCategory | src/log.cpp:149-198 | logWithCategory queues and echoes nothing below logLevel; otherwise it queues the line as written and echoes it to stdout when bToStdOut is set |
| MirrorLogger.CompactCategoryDropsMessage | src/log.cpp:178-182 | in compact mode the line is the same for every message, and it does not parse as a level label |
| MirrorLogger.CompactCategoryExample | src/log.cpp:178-182 | with the default config, an Info record "disk full" in category "net" renders the same as an empty message, as `"["` ESC `"[32m] Infonet\n"` |
| MirrorLogger.LogWithCategoryCorrected | src/log.cpp:149-198 | the corrected logWithCategory queues the CategoryFormatter line at the record's own level, with the same stdout echo |
| MirrorLogger.CorrectedCategoryLine | src/log.cpp:165-183 | the corrected line is labelled with the level and ends with the message in both modes, and equals the written line in detailed mode |
| MirrorLogger.DoLogKeepingLevelKeepsLevel | src/log.cpp:191 | the corrected doLog queues the record's level, where the written one changes every level but Info |
| Text.DecimalRoundTrip | src/include/log.cc/log.h:195 | the decimal rendering of a line or column number reads back as the same number |
| Text.FormatInterleave | src/include/log.cc/log.h:189-205 | a template of plain pieces and n "{}" holes, formatted with at least n arguments, is the pieces interleaved with the first n arguments |
| Text.CString | src/log.cpp:196 | msg.data() read as a C string is the longest NUL-free prefix of the message |

## Left out

- Threads, the mutex, the condition variable and SyncLogger's atomic spin-wait: concurrency is a sequence of interleaved events. A blocked pop is a worker tick that does nothing.
- Real file and console I/O, and a file that fails to open: appenders are actions on an ordered trace.
- The wall clock: it is an integer number of seconds passed to each worker iteration. The flush task's second clock read when it resets `last` uses the same time.
- `static last` and `static elem` are shared across every instance of the lambda: the model keeps `last` per core.
- The flush notices, `getCurentTimeStr` and the profiling printout. After each file flush, the flush task prints a notice to `std::cout`: `internalLog` at `src/include/log.cc/log.h:223-226` and `:247`, and `debug` at `src/log.h:224-225`. The console appender writes to that same `std::cout` (`src/log.h:52`, `src/include/log.cc/log.h:129`), so the real console stream carries these notices between appender lines. The Console sink models only the console appender's writes, so `Written(io, Console)` in LogCore.DeliveredConsistent and LogCore.FifoDelivery leaves the notices out.
- A second `run()`, which would assign over a joinable `std::thread` and terminate the program: modelled as ignored.
- DefaultFormatter's body is not part of this model: every logger takes its formatter as a function-valued parameter, and CategoryFormatter is modelled in full.
- The class declaration of the `src/log.cpp` Logger is not part of this model: its `msgQueue` and `bToStdOut` members are inferred from their uses.
- `test/main.cpp`, `helper.h` and `base.h`: drivers and macros.
- `std::format` escapes (`{{`, format specs): the templates use none.
- The doc comment at `src/log_level.h:46-47` calls Debug green, while the tables make it cyan: the model follows the tables.
- Levels.ToStringFallback: "Unknown" is returned for a value outside the enum only in a build with NDEBUG; otherwise the `assert(false)` at `src/log_level.cpp:27` aborts the program first, and the model does not represent that abort.
- File appenders are registered before `run()`: no event adds one, so registering a file while the worker iterates the registry (`src/log.h:255-260`) is not modelled.
- MessageQueue.Pop: the blocking wait is a precondition (`CanPop`), so the wait itself is not modelled.

## Findings

| source | as written | input that shows it | evidently intended | confidence | as-written member | corrected member |
|---|---|---|---|---|---|---|
| src/include/log.cc/log.h:96-100 | once shutdown is set, pop removes the front record and reports false, so the worker exits without writing it | one file appender, run(), a Warn record "saved?", shutdown(), one worker iteration | drain-on-shutdown: keep reporting true until the queue is empty | high, not executed | LogCore.ShutdownDropsBuffered | LogCore.DrainingDeliversAll |
| src/log.cpp:178-182 | the compact template has three holes but is given colour, level, category and message, so the colour fills the label and the message is dropped | Info, category "net", message "disk full", default config | the CategoryFormatter line "[level] category msg\n" | high, not executed | MirrorLogger.CompactCategoryDropsMessage | MirrorLogger.CorrectedCategoryLine |
| src/log.cpp:191 | doLog pushes with the default level Info instead of the record's level, so the core's console appender colours every such line as Info | a Warn record logged through Logger::log | push the message at the record's level | medium, not executed | MirrorLogger.DoLogQueuesAtInfo | MirrorLogger.DoLogKeepingLevelKeepsLevel |

=== FILE: appenders.dfy ===
/**
  The appenders as an ordered trace of output actions. A FileAppender is
  identified by its index in the registry; ConsoleAppender wraps each
  record in its level's colour code and the reset code. The contents of one
  sink are the projection of the trace onto it.
 */
module Appenders {
  import opened Text
  import opened Levels
  import opened MessageQueue

  /** One observable output action, in the order the program performs them. */
  datatype IoAction =
    | FileWrite(file: nat, text: string)   // fileStream << elem.msg on appender `file`
    | FileFlush(file: nat)                 // fileStream.flush() on appender `file`
    | ConsoleWrite(text: string)           // out << color << elem.msg << resetColor

  datatype Sink = Console | File(index: nat)

  /** What a console appender prints for one record. */
  function ConsoleLine(e: Elem): (line: string)
    ensures |line| == |e.msg| + 9
    ensures line[..5] == ColorCode(e.level)
    ensures line[5..|line| - 4] == e.msg
    ensures line[|line| - 4..] == ResetCode
  {
    ColorCode(e.level) + e.msg + ResetCode
  }

  /** The colour and the message can both be read back from a console line. */
  lemma ConsoleLineDecodes(e: Elem)
    ensures ColorOfCode(ConsoleLine(e)[..5]) == Some(LevelColor(e.level))
    ensures ConsoleLine(e)[5..|ConsoleLine(e)| - 4] == e.msg
  {
    ColorCodeIsComposition(e.level);
    ColorCodeRoundTrip(LevelColor(e.level));
  }

  /** The text one action puts on a sink, if any. */
  function Emitted(a: IoAction, s: Sink): seq<string>
  {
    match a
    case FileWrite(i, t) => if s == File(i) then [t] else []
    case FileFlush(_) => []
    case ConsoleWrite(t) => if s == Console then [t] else []
  }

  /** Everything written to sink s, in order. */
  function Written(io: seq<IoAction>, s: Sink): seq<string>
  {
    if |io| == 0 then [] else Written(io[..|io| - 1], s) + Emitted(io[|io| - 1], s)
  }

  /** How many times file appender i was flushed. */
  function Flushes(io: seq<IoAction>, i: nat): nat
  {
    if |io| == 0 then 0
    else Flushes(io[..|io| - 1], i) + (if io[|io| - 1] == FileFlush(i) then 1 else 0)
  }

  lemma {:induction false} WrittenAppend(a: seq<IoAction>, b: seq<IoAction>, s: Sink)
    ensures Written(a + b, s) == Written(a, s) + Written(b, s)
    decreases |b|
  {
    if |b| == 0 {
      assert a + b == a;
    } else {
      assert (a + b)[..|a + b| - 1] == a + b[..|b| - 1];
      WrittenAppend(a, b[..|b| - 1], s);
    }
  }

  lemma {:induction false} FlushesAppend(a: seq<IoAction>, b: seq<IoAction>, i: nat)
    ensures Flushes(a + b, i) == Flushes(a, i) + Flushes(b, i)
    decreases |b|
  {
    if |b| == 0 {
      assert a + b == a;
    } else {
      assert (a + b)[..|a + b| - 1] == a + b[..|b| - 1];
      FlushesAppend(a, b[..|b| - 1], i);
    }
  }

  /** `for (auto &fileAppender : fileAppenders) fileAppender(elem);` over n appenders, in registry order. */
  function FanOut(n: nat, msg: string): (r: seq<IoAction>)
    ensures |r| == n
    ensures forall i :: 0 <= i < n ==> r[i] == FileWrite(i, msg)
  {
    if n == 0 then [] else FanOut(n - 1, msg) + [FileWrite(n - 1, msg)]
  }

  /** `for (auto &fileAppender : fileAppenders) fileAppender.flush();` over n appenders, in registry order. */
  function FlushAll(n: nat): (r: seq<IoAction>)
    ensures |r| == n
    ensures forall i :: 0 <= i < n ==> r[i] == FileFlush(i)
  {
    if n == 0 then [] else FlushAll(n - 1) + [FileFlush(n - 1)]
  }

  /** Dropping the last action of a trace leaves the prefix it was appended to. */
  lemma LastOfSnoc(p: seq<IoAction>, x: IoAction)
    ensures (p + [x])[..|p + [x]| - 1] == p
    ensures (p + [x])[|p + [x]| - 1] == x
  {
  }

  /** Appending one action adds what that action emits. */
  lemma SnocWritten(p: seq<IoAction>, x: IoAction, s: Sink)
    ensures Written(p + [x], s) == Written(p, s) + Emitted(x, s)
  {
    LastOfSnoc(p, x);
  }

  /** A console write adds its text to the console and nothing to any file. */
  lemma ConsoleWriteWritten(io: seq<IoAction>, t: string, s: Sink)
    ensures Written(io + [ConsoleWrite(t)], s) == Written(io, s) + (if s == Console then [t] else [])
  {
    SnocWritten(io, ConsoleWrite(t), s);
  }

  /** A console write followed by any trace. */
  lemma ConsoleThen(io: seq<IoAction>, line: string, tail: seq<IoAction>, s: Sink)
    ensures Written(io + [ConsoleWrite(line)] + tail, s)
            == Written(io, s) + (if s == Console then [line] else []) + Written(tail, s)
  {
    WrittenAppend(io + [ConsoleWrite(line)], tail, s);
    ConsoleWriteWritten(io, line, s);
  }

  /** A console write followed by a fan-out: the line on the console, the message in each registered file. */
  lemma ConsoleThenFanOut(io: seq<IoAction>, line: string, n: nat, msg: string, s: Sink)
    ensures Written(io + [ConsoleWrite(line)] + FanOut(n, msg), s)
            == Written(io, s) + (if s == Console then [line] else if s.File? && s.index < n then [msg] else [])
  {
    ConsoleThen(io, line, FanOut(n, msg), s);
    FanOutWrites(n, msg, s);
    if s == Console {
      assert Written(io, s) + [line] + [] == Written(io, s) + [line];
    } else {
      assert Written(io, s) + [] == Written(io, s);
    }
  }

  /** A file write adds its text to that file and nothing anywhere else. */
  lemma FileWriteWritten(io: seq<IoAction>, i: nat, t: string, s: Sink)
    ensures Written(io + [FileWrite(i, t)], s) == Written(io, s) + (if s == File(i) then [t] else [])
  {
    SnocWritten(io, FileWrite(i, t), s);
  }

  /** Writing the message to file n - 1 after it reached files 0..n-2 extends that to files 0..n-1. */
  lemma WriteAfter(p: seq<IoAction>, q: seq<IoAction>, n: nat, msg: string, s: Sink)
    requires n > 0 && q == p + [FileWrite(n - 1, msg)]
    requires Written(p, s) == (if s.File? && s.index < n - 1 then [msg] else [])
    ensures Written(q, s) == (if s.File? && s.index < n then [msg] else [])
  {
    FileWriteWritten(p, n - 1, msg, s);
    if s != File(n - 1) {
      assert Written(p, s) + [] == Written(p, s);
    }
  }

  /** Fan-out gives every registered file the message exactly once and prints nothing. */
  lemma {:induction false} FanOutWrites(n: nat, msg: string, s: Sink)
    ensures Written(FanOut(n, msg), s) == (if s.File? && s.index < n then [msg] else [])
  {
    if n > 0 {
      FanOutWrites(n - 1, msg, s);
      WriteAfter(FanOut(n - 1, msg), FanOut(n, msg), n, msg, s);
    }
  }

  /** A write after a flush-free trace leaves it flush-free. */
  lemma NoFlushAfter(p: seq<IoAction>, q: seq<IoAction>, n: nat, msg: string, i: nat)
    requires n > 0 && q == p + [FileWrite(n - 1, msg)]
    requires Flushes(p, i) == 0
    ensures Flushes(q, i) == 0
  {
    LastOfSnoc(p, FileWrite(n - 1, msg));
  }

  lemma {:induction false} FanOutFlushesNothing(n: nat, msg: string, i: nat)
    ensures Flushes(FanOut(n, msg), i) == 0
  {
    if n > 0 {
      FanOutFlushesNothing(n - 1, msg, i);
      NoFlushAfter(FanOut(n - 1, msg), FanOut(n, msg), n, msg, i);
    }
  }

  /** Flushing file n - 1 after files 0..n-2 were flushed once each extends that to files 0..n-1. */
  lemma FlushCountAfter(p: seq<IoAction>, q: seq<IoAction>, n: nat, i: nat)
    requires n > 0 && q == p + [FileFlush(n - 1)]
    requires Flushes(p, i) == (if i < n - 1 then 1 else 0)
    ensures Flushes(q, i) == (if i < n then 1 else 0)
  {
    LastOfSnoc(p, FileFlush(n - 1));
  }

  lemma {:induction false} FlushAllFlushes(n: nat, i: nat)
    ensures Flushes(FlushAll(n), i) == (if i < n then 1 else 0)
  {
    if n > 0 {
      FlushAllFlushes(n - 1, i);
      FlushCountAfter(FlushAll(n - 1), FlushAll(n), n, i);
    }
  }

  /** A flush after a trace that wrote nothing to s still wrote nothing to s. */
  lemma SilentAfter(p: seq<IoAction>, q: seq<IoAction>, n: nat, s: Sink)
    requires n > 0 && q == p + [FileFlush(n - 1)]
    requires Written(p, s) == []
    ensures Written(q, s) == []
  {
    SnocWritten(p, FileFlush(n - 1), s);
  }

  lemma {:induction false} FlushAllWritesNothing(n: nat, s: Sink)
    ensures Written(FlushAll(n), s) == []
  {
    if n > 0 {
      FlushAllWritesNothing(n - 1, s);
      SilentAfter(FlushAll(n - 1), FlushAll(n), n, s);
    }
  }

  /** Flushing every file flushes each registered file once and writes nothing. */
  lemma FlushAllEffect(n: nat, i: nat, s: Sink)
    ensures Flushes(FlushAll(n), i) == (if i < n then 1 else 0)
    ensures Written(FlushAll(n), s) == []
  {
    FlushAllFlushes(n, i);
    FlushAllWritesNothing(n, s);
  }

  /** The text every file appender writes for a sequence of records. */
  function Msgs(es: seq<Elem>): (r: seq<string>)
    ensures |r| == |es|
    ensures forall k :: 0 <= k < |es| ==> r[k] == es[k].msg
  {
    seq(|es|, k requires 0 <= k < |es| => es[k].msg)
  }

  /** The text the console appender writes for a sequence of records. */
  function ConsoleLines(es: seq<Elem>): (r: seq<string>)
    ensures |r| == |es|
    ensures forall k :: 0 <= k < |es| ==> r[k] == ConsoleLine(es[k])
  {
    seq(|es|, k requires 0 <= k < |es| => ConsoleLine(es[k]))
  }

  lemma MsgsSnoc(es: seq<Elem>, e: Elem)
    ensures Msgs(es + [e]) == Msgs(es) + [e.msg]
  {
  }

  lemma ConsoleLinesSnoc(es: seq<Elem>, e: Elem)
    ensures ConsoleLines(es + [e]) == ConsoleLines(es) + [ConsoleLine(e)]
  {
  }
}

=== FILE: flush_policy.dfy ===
/**
  The worker's time-based flush task. The wall clock becomes an integer
  number of seconds passed in by the caller; the flush task's `static last`
  becomes explicit state that is unset until the flush task first runs.
 */
module FlushPolicy {
  import opened Text

  /** flushIntervalSec. */
  const FlushIntervalSec: int := 10

  const TwoTo32: int := 0x1_0000_0000
  const TwoTo64: int := 0x1_0000_0000_0000_0000

  /**
    The type the gap is stored in: std::size_t in AsyncLogControl,
    int in LogCore.
   */
  datatype GapType = SizeT | Int32

  /** Conversion of the seconds count to std::size_t: reduction modulo 2^64. */
  function ToSizeT(d: int): (r: int)
    ensures 0 <= r < TwoTo64
    ensures 0 <= d < TwoTo64 ==> r == d
    ensures (d - r) % TwoTo64 == 0
  {
    d % TwoTo64
  }

  /** Conversion of the seconds count to a 32-bit int: reduction into [-2^31, 2^31). */
  function ToInt32(d: int): (r: int)
    ensures -TwoTo32 / 2 <= r < TwoTo32 / 2
    ensures -TwoTo32 / 2 <= d < TwoTo32 / 2 ==> r == d
    ensures (d - r) % TwoTo32 == 0
  {
    var m := d % TwoTo32;
    if m >= TwoTo32 / 2 then m - TwoTo32 else m
  }

  /** The gap as the flush task stores it. */
  function Gap(now: int, last: int, t: GapType): int
  {
    match t
    case SizeT => ToSizeT(now - last)
    case Int32 => ToInt32(now - last)
  }

  /** `gap >= flushIntervalSec`. */
  predicate FlushDue(now: int, last: int, t: GapType)
  {
    Gap(now, last, t) >= FlushIntervalSec
  }

  /** Whether the flush task flushed, and the value `last` holds afterwards. */
  datatype FlushOutcome = FlushOutcome(flushed: bool, last: int)

  /**
    One run of the flush task at time `now`. On the first run `last` is
    initialised to now, so the gap is 0. `last` moves only when the flush task
    flushes.
   */
  function FlushTask(last: Option<int>, now: int, t: GapType): (r: FlushOutcome)
    ensures last.None? ==> !r.flushed && r.last == now
    ensures last.Some? ==> (r.flushed <==> FlushDue(now, last.value, t))
    ensures r.flushed ==> r.last == now
    ensures last.Some? && !r.flushed ==> r.last == last.value
  {
    var l := if last.Some? then last.value else now;
    if FlushDue(now, l, t) then FlushOutcome(true, now) else FlushOutcome(false, l)
  }

  /**
    With a clock that does not run backwards, a flush happens exactly when
    at least ten whole seconds have passed since `last`, for gaps below
    2^31 seconds, whichever type holds the gap.
   */
  lemma FlushDueForward(now: int, last: int, t: GapType)
    requires last <= now < last + TwoTo32 / 2
    ensures FlushDue(now, last, t) <==> now - last >= FlushIntervalSec
  {
  }

  /** For a clock that does not run backwards, a flush always means ten seconds have passed. */
  lemma DueMeansElapsed(now: int, last: int, t: GapType)
    requires last <= now
    requires FlushDue(now, last, t)
    ensures now - last >= FlushIntervalSec
  {
  }

  /**
    A clock that steps back one second triggers a flush when the gap is a
    std::size_t (the negative count wraps to a huge value) but not when it
    is an int.
   */
  lemma BackwardClock(last: int)
    ensures FlushDue(last - 1, last, SizeT)
    ensures !FlushDue(last - 1, last, Int32)
  {
  }

  /** The times at which the flush task flushes, run once per time in `times`. */
  function FlushTimes(last: Option<int>, times: seq<int>, t: GapType): seq<int>
    decreases |times|
  {
    if |times| == 0 then []
    else
      var o := FlushTask(last, times[0], t);
      (if o.flushed then [times[0]] else []) + FlushTimes(Some(o.last), times[1..], t)
  }

  predicate Nondecreasing(times: seq<int>)
  {
    forall i, j :: 0 <= i < j < |times| ==> times[i] <= times[j]
  }

  /**
    Flush cadence: along a clock that does not run backwards, successive
    flushes are at least ten seconds apart, and the first one comes at
    least ten seconds after `last` (or after the first run, when `last`
    is still unset).
   */
  lemma {:induction false} FlushesAreSpaced(last: Option<int>, times: seq<int>, t: GapType)
    requires Nondecreasing(times)
    requires last.Some? && |times| > 0 ==> last.value <= times[0]
    ensures var f := FlushTimes(last, times, t);
      && (forall i :: 0 <= i < |f| - 1 ==> f[i] + FlushIntervalSec <= f[i + 1])
      && (|f| > 0 && last.Some? ==> last.value + FlushIntervalSec <= f[0])
      && (|f| > 0 && last.None? ==> times[0] + FlushIntervalSec <= f[0])
    decreases |times|
  {
    if |times| > 0 {
      var o := FlushTask(last, times[0], t);
      var rest := times[1..];
      assert Nondecreasing(rest);
      if o.flushed {
        DueMeansElapsed(times[0], last.value, t);
      }
      FlushesAreSpaced(Some(o.last), rest, t);
    }
  }

  /** The first run of the flush task never flushes. */
  lemma FirstRunNeverFlushes(now: int, t: GapType)
    ensures !FlushTask(None, now, t).flushed
    ensures FlushTimes(None, [now], t) == []
  {
  }
}

=== FILE: formatting.dfy ===
/**
  Logger configuration and line formatting: Config with its two levels,
  the call-site record, the format templates the loggers use, and
  CategoryFormatter. Lines are produced by the std::format model in Text,
  so their shapes below are consequences of the templates.
 */
module Formatting {
  import opened Text
  import opened Levels

  /** Config: the filter level and the level from which lines carry the call site. */
  datatype Config = Config(logLevel: Level, logDetailLevel: Level)

  /** A default-constructed Config. */
  const DefaultConfig: Config := Config(Debug, Warn)

  /** Config::setLogLevel. */
  function SetLogLevel(c: Config, level: Level): (r: Config)
    ensures r.logLevel == level
    ensures r.logDetailLevel == c.logDetailLevel
  {
    c.(logLevel := level)
  }

  /** Config::setLogDetailLevel. */
  function SetLogDetailLevel(c: Config, level: Level): (r: Config)
    ensures r.logDetailLevel == level
    ensures r.logLevel == c.logLevel
  {
    c.(logDetailLevel := level)
  }

  /** The two setters touch different fields, so they commute. */
  lemma SettersCommute(c: Config, a: Level, b: Level)
    ensures SetLogLevel(SetLogDetailLevel(c, b), a) == SetLogDetailLevel(SetLogLevel(c, a), b)
    ensures SetLogLevel(SetLogDetailLevel(c, b), a) == Config(a, b)
  {
  }

  /** `level < config.logLevel`: the record is dropped before any formatting. */
  predicate FilteredOut(c: Config, level: Level)
  {
    Below(level, c.logLevel)
  }

  /** `level >= config.logDetailLevel`: the record is rendered with its call site. */
  predicate Detailed(c: Config, level: Level)
  {
    !Below(level, c.logDetailLevel)
  }

  /** With the default Config nothing is filtered, and exactly Warn, Error and Fatal are detailed. */
  lemma DefaultConfigBehaviour(level: Level)
    ensures !FilteredOut(DefaultConfig, level)
    ensures Detailed(DefaultConfig, level) <==> level in {Warn, Error, Fatal}
  {
  }

  /** std::source_location: file, line, column and function name. */
  datatype SourceLocation = SourceLocation(fileName: string, line: nat, column: nat, functionName: string)

  /** What a formatter returns: its boolean verdict and the text left in `output`. */
  datatype Formatted = Formatted(accepted: bool, output: string)

  /**
    The formatter callback: (config, output buffer as passed in, level,
    message, call site) to verdict and final buffer contents.
   */
  type Formatter = (Config, string, Level, string, SourceLocation) -> Formatted

  /** "[{}]\t{}\t{}:{}:{} [{}]: {}\n": level, category, file, line, column, function, message. */
  const DetailedCategoryTemplate: string := "[{}]\t{}\t{}:{}:{} [{}]: {}\n"
  const DetailedCategoryPieces: seq<string> := ["[", "]\t", "\t", ":", ":", " [", "]: ", "\n"]

  /** "[{}] {}{}\n": level, category, message. */
  const CompactCategoryTemplate: string := "[{}] {}{}\n"
  const CompactCategoryPieces: seq<string> := ["[", "] ", "", "\n"]

  /** "[{}]\t{}:{}:{} [{}]: {}\n": level, file, line, column, function, message. */
  const DetailedTemplate: string := "[{}]\t{}:{}:{} [{}]: {}\n"
  const DetailedPieces: seq<string> := ["[", "]\t", ":", ":", " [", "]: ", "\n"]

  /** "[{}]\t{}\n": level, message. */
  const CompactTemplate: string := "[{}]\t{}\n"
  const CompactPieces: seq<string> := ["[", "]\t", "\n"]

  /** The compact template spelled out with arguments in place of its fields. */
  lemma CompactFlat(a: seq<string>)
    requires |a| == 2
    ensures Interleave(CompactPieces, a) == "[" + a[0] + "]\t" + a[1] + "\n"
  {
    var p := CompactPieces;
    InterleaveHead(p, a);
    InterleavePrefix(p, a, 1, "[" + a[0]);
    InterleaveLast(p, a);
  }

  lemma CompactCategoryFlat(a: seq<string>)
    requires |a| == 3
    ensures Interleave(CompactCategoryPieces, a) == "[" + a[0] + "] " + a[1] + a[2] + "\n"
  {
    var p := CompactCategoryPieces;
    var p1 := "[" + a[0];
    var p2 := p1 + "] " + a[1];
    InterleaveHead(p, a);
    InterleavePrefix(p, a, 1, p1);
    InterleavePrefix(p, a, 2, p2);
    InterleaveLast(p, a);
    assert p2 + "" == p2;
  }

  /** The first four fields of an interleave with at least four arguments. */
  lemma UnrollFour(l: seq<string>, a: seq<string>)
    requires |l| == |a| + 1 && |a| >= 4
    ensures Interleave(l, a) == l[0] + a[0] + l[1] + a[1] + l[2] + a[2] + l[3] + a[3] + Interleave(l[4..], a[4..])
  {
    var p1 := l[0] + a[0];
    var p2 := p1 + l[1] + a[1];
    var p3 := p2 + l[2] + a[2];
    InterleaveHead(l, a);
    InterleavePrefix(l, a, 1, p1);
    InterleavePrefix(l, a, 2, p2);
    InterleavePrefix(l, a, 3, p3);
  }

  /** Interleave of seven literals and six arguments, spelled out. */
  lemma Unroll6(l: seq<string>, a: seq<string>)
    requires |l| == 7 && |a| == 6
    ensures Interleave(l, a)
         == l[0] + a[0] + l[1] + a[1] + l[2] + a[2] + l[3] + a[3] + l[4] + a[4] + l[5] + a[5] + l[6]
  {
    UnrollFour(l, a);
    Unroll6Back(l, a, l[0] + a[0] + l[1] + a[1] + l[2] + a[2] + l[3] + a[3]);
  }

  /** The last two fields and the final literal of a seven-literal interleave. */
  lemma Unroll6Back(l: seq<string>, a: seq<string>, p3: string)
    requires |l| == 7 && |a| == 6
    requires Interleave(l, a) == p3 + Interleave(l[4..], a[4..])
    ensures Interleave(l, a) == p3 + l[4] + a[4] + l[5] + a[5] + l[6]
  {
    var p4 := p3 + l[4] + a[4];
    InterleavePrefix(l, a, 4, p3);
    InterleavePrefix(l, a, 5, p4);
    InterleaveLast(l, a);
  }

  /** Interleave of eight literals and seven arguments, spelled out. */
  lemma Unroll7(l: seq<string>, a: seq<string>)
    requires |l| == 8 && |a| == 7
    ensures Interleave(l, a)
         == l[0] + a[0] + l[1] + a[1] + l[2] + a[2] + l[3] + a[3] + l[4] + a[4] + l[5] + a[5] + l[6] + a[6] + l[7]
  {
    UnrollFour(l, a);
    Unroll7Back(l, a, l[0] + a[0] + l[1] + a[1] + l[2] + a[2] + l[3] + a[3]);
  }

  /** The last three fields and the final literal of an eight-literal interleave. */
  lemma Unroll7Back(l: seq<string>, a: seq<string>, p3: string)
    requires |l| == 8 && |a| == 7
    requires Interleave(l, a) == p3 + Interleave(l[4..], a[4..])
    ensures Interleave(l, a) == p3 + l[4] + a[4] + l[5] + a[5] + l[6] + a[6] + l[7]
  {
    var p4 := p3 + l[4] + a[4];
    var p5 := p4 + l[5] + a[5];
    InterleavePrefix(l, a, 4, p3);
    InterleavePrefix(l, a, 5, p4);
    InterleavePrefix(l, a, 6, p5);
    InterleaveLast(l, a);
  }

  lemma DetailedFlat(a: seq<string>)
    requires |a| == 6
    ensures Interleave(DetailedPieces, a)
         == "[" + a[0] + "]\t" + a[1] + ":" + a[2] + ":" + a[3] + " [" + a[4] + "]: " + a[5] + "\n"
  {
    Unroll6(DetailedPieces, a);
  }

  lemma DetailedCategoryFlat(a: seq<string>)
    requires |a| == 7
    ensures Interleave(DetailedCategoryPieces, a)
         == "[" + a[0] + "]\t" + a[1] + "\t" + a[2] + ":" + a[3] + ":" + a[4] + " [" + a[5] + "]: " + a[6] + "\n"
  {
    Unroll7(DetailedCategoryPieces, a);
  }

  /** Each template is its literal pieces with a replacement field between neighbours. */
  lemma CompactTemplateSplit()
    ensures CompactTemplate == Interleave(CompactPieces, HoleArgs(2))
    ensures forall i :: 0 <= i < |CompactPieces| ==> Plain(CompactPieces[i])
  {
    var h := ["{}", "{}"];
    assert HoleArgs(2) == h;
    CompactFlat(h);
    CompactSpelled();
    CompactPiecesPlain();
  }

  lemma CompactSpelled()
    ensures "[" + "{}" + "]\t" + "{}" + "\n"
         == CompactTemplate
  {
  }

  lemma CompactPiecesPlain()
    ensures forall i :: 0 <= i < |CompactPieces| ==> Plain(CompactPieces[i])
  {
  }

  lemma CompactCategoryTemplateSplit()
    ensures CompactCategoryTemplate == Interleave(CompactCategoryPieces, HoleArgs(3))
    ensures forall i :: 0 <= i < |CompactCategoryPieces| ==> Plain(CompactCategoryPieces[i])
  {
    var h := ["{}", "{}", "{}"];
    assert HoleArgs(3) == h;
    CompactCategoryFlat(h);
    CompactCategorySpelled();
    CompactCategoryPiecesPlain();
  }

  lemma CompactCategorySpelled()
    ensures "[" + "{}" + "] " + "{}" + "" + "{}" + "\n"
         == CompactCategoryTemplate
  {
  }

  lemma CompactCategoryPiecesPlain()
    ensures forall i :: 0 <= i < |CompactCategoryPieces| ==> Plain(CompactCategoryPieces[i])
  {
  }

  lemma DetailedTemplateSplit()
    ensures DetailedTemplate == Interleave(DetailedPieces, HoleArgs(6))
    ensures forall i :: 0 <= i < |DetailedPieces| ==> Plain(DetailedPieces[i])
  {
    var h := ["{}", "{}", "{}", "{}", "{}", "{}"];
    assert HoleArgs(6) == h;
    DetailedFlat(h);
    DetailedSpelled();
    DetailedPiecesPlain();
  }

  lemma DetailedSpelled()
    ensures "[" + "{}" + "]\t" + "{}" + ":" + "{}" + ":" + "{}" + " [" + "{}" + "]: " + "{}" + "\n"
         == DetailedTemplate
  {
  }

  lemma DetailedPiecesPlain()
    ensures forall i :: 0 <= i < |DetailedPieces| ==> Plain(DetailedPieces[i])
  {
  }

  lemma DetailedCategoryTemplateSplit()
    ensures DetailedCategoryTemplate == Interleave(DetailedCategoryPieces, HoleArgs(7))
    ensures forall i :: 0 <= i < |DetailedCategoryPieces| ==> Plain(DetailedCategoryPieces[i])
  {
    var h := ["{}", "{}", "{}", "{}", "{}", "{}", "{}"];
    assert HoleArgs(7) == h;
    DetailedCategoryFlat(h);
    DetailedCategorySpelled();
    DetailedCategoryPiecesPlain();
  }

  lemma DetailedCategorySpelled()
    ensures "[" + "{}" + "]\t" + "{}" + "\t" + "{}" + ":" + "{}" + ":" + "{}" + " [" + "{}" + "]: " + "{}" + "\n"
         == DetailedCategoryTemplate
  {
  }

  lemma DetailedCategoryPiecesPlain()
    ensures forall i :: 0 <= i < |DetailedCategoryPieces| ==> Plain(DetailedCategoryPieces[i])
  {
  }

  /** The decimal line and column, as std::format renders them. */
  function LineText(loc: SourceLocation): string
  {
    NatToString(loc.line)
  }

  function ColumnText(loc: SourceLocation): string
  {
    NatToString(loc.column)
  }

  /** std::format(DetailedCategoryTemplate, levelStr, category, location..., msg). */
  function DetailedCategoryLine(levelStr: string, category: string, loc: SourceLocation, msg: string): (line: string)
    ensures line == "[" + levelStr + "]\t" + category + "\t" + loc.fileName + ":" + LineText(loc) + ":"
      + ColumnText(loc) + " [" + loc.functionName + "]: " + msg + "\n"
  {
    var args := [levelStr, category, loc.fileName, LineText(loc), ColumnText(loc), loc.functionName, msg];
    DetailedCategoryTemplateSplit();
    FormatExact(DetailedCategoryTemplate, DetailedCategoryPieces, args);
    DetailedCategoryFlat(args);
    StdFormat(DetailedCategoryTemplate, args)
  }

  /**
    std::format(CompactCategoryTemplate, args...): three replacement
    fields; arguments past the third are ignored.
   */
  function CompactCategoryLine(args: seq<string>): (line: string)
    requires |args| >= 3
    ensures line == "[" + args[0] + "] " + args[1] + args[2] + "\n"
  {
    CompactCategoryTemplateSplit();
    FormatInterleave(CompactCategoryPieces, args[..3], args[3..]);
    CompactCategoryFlat(args[..3]);
    assert args[..3] + args[3..] == args;
    StdFormat(CompactCategoryTemplate, args)
  }

  /** std::format(DetailedTemplate, levelStr, location..., msg). */
  function DetailedLine(levelStr: string, loc: SourceLocation, msg: string): (line: string)
    ensures line == "[" + levelStr + "]\t" + loc.fileName + ":" + LineText(loc) + ":"
      + ColumnText(loc) + " [" + loc.functionName + "]: " + msg + "\n"
  {
    var args := [levelStr, loc.fileName, LineText(loc), ColumnText(loc), loc.functionName, msg];
    DetailedTemplateSplit();
    FormatExact(DetailedTemplate, DetailedPieces, args);
    DetailedFlat(args);
    StdFormat(DetailedTemplate, args)
  }

  /** std::format(CompactTemplate, levelStr, msg). */
  function CompactLine(levelStr: string, msg: string): (line: string)
    ensures line == "[" + levelStr + "]\t" + msg + "\n"
  {
    var args := [levelStr, msg];
    CompactTemplateSplit();
    FormatExact(CompactTemplate, CompactPieces, args);
    CompactFlat(args);
    StdFormat(CompactTemplate, args)
  }

  /**
    CategoryFormatter::operator(): overwrites the buffer with the detailed
    line at or above logDetailLevel and with the compact line below it,
    and always reports true.
   */
  function CategoryFormat(category: string, config: Config, output: string, level: Level, msg: string,
                          loc: SourceLocation): (r: Formatted)
    ensures r.accepted
    ensures Detailed(config, level) ==>
      r.output == "[" + ToString(level) + "]\t" + category + "\t" + loc.fileName + ":" + LineText(loc) + ":"
        + ColumnText(loc) + " [" + loc.functionName + "]: " + msg + "\n"
    ensures !Detailed(config, level) ==>
      r.output == "[" + ToString(level) + "] " + category + msg + "\n"
  {
    var levelStr := ToString(level);
    if Detailed(config, level) then
      Formatted(true, DetailedCategoryLine(levelStr, category, loc, msg))
    else
      Formatted(true, CompactCategoryLine([levelStr, category, msg]))
  }

  /** A CategoryFormatter as a formatter value. */
  function CategoryFormatter(category: string): Formatter
  {
    (config, output, level, msg, loc) => CategoryFormat(category, config, output, level, msg, loc)
  }

  /** First index at or after `from` holding c. */
  function IndexOf(s: string, c: char, from: nat): (r: Option<nat>)
    ensures r.Some? ==> from <= r.value < |s| && s[r.value] == c
    decreases |s| - from
  {
    if from >= |s| then None
    else if s[from] == c then Some(from)
    else IndexOf(s, c, from + 1)
  }

  lemma {:induction false} IndexOfFinds(s: string, c: char, from: nat, k: nat)
    requires from <= k < |s| && s[k] == c
    requires forall j :: from <= j < k ==> s[j] != c
    ensures IndexOf(s, c, from) == Some(k)
    decreases k - from
  {
    if from < k {
      IndexOfFinds(s, c, from + 1, k);
    }
  }

  /** The level named in a line's leading "[...]" label, if it names one. */
  function LabelOf(line: string): Option<Level>
  {
    if |line| > 0 && line[0] == '[' then
      match IndexOf(line, ']', 1)
      case Some(k) => LevelFromName(line[1..k])
      case None => None
    else None
  }

  /** A line that starts with "[", the level's name and then "]" is labelled with that level. */
  lemma LabelOfBracketed(level: Level, tail: string)
    requires |tail| > 0 && tail[0] == ']'
    ensures LabelOf("[" + ToString(level) + tail) == Some(level)
  {
    var name := ToString(level);
    var line := "[" + name + tail;
    NamesHaveNoBracket(level);
    assert forall j :: 1 <= j < |name| + 1 ==> line[j] == name[j - 1];
    IndexOfFinds(line, ']', 1, |name| + 1);
    assert line[1..|name| + 1] == name;
    ToStringRoundTrip(level);
  }

  /**
    A template that opens with "[{}]" and gets the level's name as its
    first argument produces a line labelled with that level.
   */
  lemma LabelOfInterleave(level: Level, lits: seq<string>, args: seq<string>)
    requires |lits| == |args| + 1 && |args| > 0
    requires lits[0] == "[" && args[0] == ToString(level)
    requires |lits[1]| > 0 && lits[1][0] == ']'
    ensures LabelOf(Interleave(lits, args)) == Some(level)
  {
    InterleaveFirst(lits[1..], args[1..]);
    LabelOfBracketed(level, Interleave(lits[1..], args[1..]));
  }

  /** The arguments CategoryFormatter passes to std::format. */
  function CategoryArgs(category: string, config: Config, level: Level, msg: string, loc: SourceLocation): seq<string>
  {
    if Detailed(config, level) then
      [ToString(level), category, loc.fileName, LineText(loc), ColumnText(loc), loc.functionName, msg]
    else [ToString(level), category, msg]
  }

  /** CategoryFormatter's output is its template's pieces interleaved with those arguments. */
  lemma CategoryFormatIsInterleave(category: string, config: Config, output: string, level: Level,
                                   msg: string, loc: SourceLocation)
    ensures Detailed(config, level) ==>
              CategoryFormat(category, config, output, level, msg, loc).output
              == Interleave(DetailedCategoryPieces, CategoryArgs(category, config, level, msg, loc))
    ensures !Detailed(config, level) ==>
              CategoryFormat(category, config, output, level, msg, loc).output
              == Interleave(CompactCategoryPieces, CategoryArgs(category, config, level, msg, loc))
  {
    var args := CategoryArgs(category, config, level, msg, loc);
    if Detailed(config, level) {
      DetailedCategoryTemplateSplit();
      FormatExact(DetailedCategoryTemplate, DetailedCategoryPieces, args);
    } else {
      CompactCategoryTemplateSplit();
      FormatExact(CompactCategoryTemplate, CompactCategoryPieces, args);
      assert args[..3] == args;
    }
  }

  /** Every CategoryFormatter line carries its level as label and ends with the message. */
  lemma CategoryLineLabelAndMessage(category: string, config: Config, output: string, level: Level,
                                    msg: string, loc: SourceLocation)
    ensures LabelOf(CategoryFormat(category, config, output, level, msg, loc).output) == Some(level)
    ensures EndsWith(CategoryFormat(category, config, output, level, msg, loc).output, msg + "\n")
  {
    var args := CategoryArgs(category, config, level, msg, loc);
    CategoryFormatIsInterleave(category, config, output, level, msg, loc);
    if Detailed(config, level) {
      LabelOfInterleave(level, DetailedCategoryPieces, args);
      InterleaveEnds(DetailedCategoryPieces, args);
    } else {
      LabelOfInterleave(level, CompactCategoryPieces, args);
      InterleaveEnds(CompactCategoryPieces, args);
    }
  }

  /** CategoryFormatter ignores whatever the output buffer held. */
  lemma CategoryFormatOverwrites(category: string, config: Config, a: string, b: string, level: Level,
                                 msg: string, loc: SourceLocation)
    ensures CategoryFormat(category, config, a, level, msg, loc) == CategoryFormat(category, config, b, level, msg, loc)
  {
  }
}

=== FILE: legacy_levels.dfy ===
/**
  The alternative seven-level severity enum of the header-only logger
  (include/log.cc/level.h): its values, its name table, the string-keyed
  colour table, get_terminal_color and the global level setting.
 */
module LegacyLevels {
  import opened Text

  datatype LegacyLevel = Debug | Trace | Log | PureError | Warn | Error | Fatal

  /** The integer each enumerator is declared with. */
  function Value(l: LegacyLevel): int
  {
    match l
    case Debug => 5
    case Trace => 10
    case Log => 15
    case PureError => 19
    case Warn => 50
    case Error => 75
    case Fatal => 100
  }

  /** The enumerators in declaration order. */
  const Declared: seq<LegacyLevel> := [Debug, Trace, Log, PureError, Warn, Error, Fatal]

  /** Values increase strictly along the declaration order, and every level is declared once. */
  lemma ValuesStrictlyIncrease()
    ensures forall i, j :: 0 <= i < j < |Declared| ==> Value(Declared[i]) < Value(Declared[j])
    ensures forall l: LegacyLevel :: l in Declared
    ensures forall a: LegacyLevel, b: LegacyLevel :: Value(a) == Value(b) ==> a == b
  {
    forall l: LegacyLevel
      ensures l in Declared
    {
      match l
      case Debug => assert Declared[0] == l;
      case Trace => assert Declared[1] == l;
      case Log => assert Declared[2] == l;
      case PureError => assert Declared[3] == l;
      case Warn => assert Declared[4] == l;
      case Error => assert Declared[5] == l;
      case Fatal => assert Declared[6] == l;
    }
  }

  /** LogLevelStrings. */
  const LogLevelStrings: map<LegacyLevel, string> :=
    map[Debug := "DEBUG", Trace := "TRACE", Log := "LOG", Warn := "WARN", PureError := "PERROR",
        Error := "ERROR", Fatal := "FATAL"]

  /** LogLevelStrings has an entry for every level, and no two levels share a name. */
  lemma LevelStringsComplete(l: LegacyLevel)
    ensures l in LogLevelStrings
    ensures forall m: LegacyLevel :: m in LogLevelStrings && LogLevelStrings[m] == LogLevelStrings[l] ==> m == l
  {
    match l
    case Debug =>
    case Trace =>
    case Log =>
    case PureError =>
    case Warn =>
    case Error =>
    case Fatal =>
  }

  /** TerminalColor: colour names to ANSI escape codes (yellow is keyed "yello"). */
  const TerminalColor: map<string, string> :=
    map[
      "reset" := [Esc] + "[0m",
      "white" := [Esc] + "[37m",
      "green" := [Esc] + "[32m",
      "magenta" := [Esc] + "[35m",
      "cyan" := [Esc] + "[36m",
      "blue" := [Esc] + "[34m",
      "yello" := [Esc] + "[33m",
      "red" := [Esc] + "[31m"
    ]

  /**
    std::map::operator[] read: the mapped value, or a default-constructed
    (empty) string when the key is absent. The insertion of that empty
    entry into the map is not modelled.
   */
  function Subscript(m: map<string, string>, key: string): (r: string)
    ensures key in m ==> r == m[key]
    ensures key !in m ==> r == ""
  {
    if key in m then m[key] else ""
  }

  /**
    get_terminal_color, over the integer a LogLevel::T holds: the switch
    overwrites the white default only for the seven declared values. Every
    lookup it makes hits a key of TerminalColor (the misspelt "yello" is
    spelt the same way in both places), so it always yields one of the
    table's escape codes and never the empty default.
   */
  function GetTerminalColor(level: int): (r: string)
    ensures r in TerminalColor.Values
    ensures r != ""
  {
    var color := Subscript(TerminalColor, "white");
    if level == 5 then Subscript(TerminalColor, "cyan")
    else if level == 10 then Subscript(TerminalColor, "white")
    else if level == 15 then Subscript(TerminalColor, "green")
    else if level == 50 then Subscript(TerminalColor, "yello")
    else if level == 75 || level == 100 then Subscript(TerminalColor, "red")
    else if level == 19 then Subscript(TerminalColor, "magenta")
    else color
  }

  /** The colour get_terminal_color gives each declared level. */
  lemma TerminalColorOfLevels()
    ensures GetTerminalColor(Value(Debug)) == [Esc] + "[36m"
    ensures GetTerminalColor(Value(Trace)) == [Esc] + "[37m"
    ensures GetTerminalColor(Value(Log)) == [Esc] + "[32m"
    ensures GetTerminalColor(Value(Warn)) == [Esc] + "[33m"
    ensures GetTerminalColor(Value(Error)) == [Esc] + "[31m"
    ensures GetTerminalColor(Value(Fatal)) == [Esc] + "[31m"
    ensures GetTerminalColor(Value(PureError)) == [Esc] + "[35m"
  {
  }

  /** A value carried by no enumerator gets the white default. */
  lemma TerminalColorDefault(v: int)
    requires forall l: LegacyLevel :: Value(l) != v
    ensures GetTerminalColor(v) == [Esc] + "[37m"
  {
    assert v != Value(Debug) && v != Value(Trace) && v != Value(Log) && v != Value(PureError);
    assert v != Value(Warn) && v != Value(Error) && v != Value(Fatal);
  }

  /** The namespace-scope LOG_LEVEL (one copy per translation unit, as it is `inline static`). */
  datatype GlobalLevel = GlobalLevel(logLevel: LegacyLevel)

  /** LOG_LEVEL's initial value. */
  const InitialGlobalLevel: GlobalLevel := GlobalLevel(Debug)

  /** SetLogLevel: replaces LOG_LEVEL. */
  function SetLogLevel(g: GlobalLevel, level: LegacyLevel): (r: GlobalLevel)
    ensures r.logLevel == level
  {
    g.(logLevel := level)
  }

  /** The last SetLogLevel wins, and setting the current level changes nothing. */
  lemma SetLogLevelLastWins(g: GlobalLevel, a: LegacyLevel, b: LegacyLevel)
    ensures SetLogLevel(SetLogLevel(g, a), b) == SetLogLevel(g, b)
    ensures SetLogLevel(g, g.logLevel) == g
    ensures InitialGlobalLevel.logLevel == Debug
  {
  }
}

=== FILE: levels.dfy ===
/**
  Severity levels of the logger (LogLevel::T, six values declared with
  explicit integers) and the static lookup tables that give each level a
  name, a one-letter name and a terminal colour.
 */
module Levels {
  import opened Text

  datatype Level = Debug | Trace | Info | Warn | Error | Fatal

  /** The integer each enumerator is declared with. */
  function Value(l: Level): int
  {
    match l
    case Debug => 100
    case Trace => 200
    case Info => 300
    case Warn => 400
    case Error => 500
    case Fatal => 600
  }

  /** The enumerator declared with value v, if any. */
  function FromValue(v: int): (r: Option<Level>)
    ensures r.Some? ==> Value(r.value) == v
    ensures r.None? ==> forall l: Level :: Value(l) != v
  {
    if v == 100 then Some(Debug)
    else if v == 200 then Some(Trace)
    else if v == 300 then Some(Info)
    else if v == 400 then Some(Warn)
    else if v == 500 then Some(Error)
    else if v == 600 then Some(Fatal)
    else None
  }

  lemma ValueRoundTrip(l: Level)
    ensures FromValue(Value(l)) == Some(l)
  {
  }

  /** `a < b` on LogLevel::T: comparison of the declared integers. */
  predicate Below(a: Level, b: Level)
  {
    Value(a) < Value(b)
  }

  /** The declared values are distinct multiples of 100 from 100 to 600. */
  lemma ValuesAreDistinctHundreds()
    ensures forall l: Level :: Value(l) % 100 == 0 && 100 <= Value(l) <= 600
    ensures forall a: Level, b: Level :: Value(a) == Value(b) ==> a == b
  {
  }

  /** Below is a strict total order, and it runs Debug < Trace < Info < Warn < Error < Fatal. */
  lemma BelowIsStrictTotalOrder()
    ensures forall a: Level :: !Below(a, a)
    ensures forall a: Level, b: Level, c: Level :: Below(a, b) && Below(b, c) ==> Below(a, c)
    ensures forall a: Level, b: Level :: a != b ==> Below(a, b) || Below(b, a)
    ensures forall a: Level, b: Level :: Below(a, b) ==> !Below(b, a)
    ensures Below(Debug, Trace) && Below(Trace, Info) && Below(Info, Warn)
    ensures Below(Warn, Error) && Below(Error, Fatal)
    ensures forall l: Level :: !Below(l, Debug) && !Below(Fatal, l)
  {
  }

  /** toString's switch over the integer held in a LogLevel::T, with its fallback. */
  function NameOfValue(v: int): string
  {
    if v == 100 then "Debug"
    else if v == 200 then "Trace"
    else if v == 300 then "Info"
    else if v == 400 then "Warn"
    else if v == 500 then "Error"
    else if v == 600 then "Fatal"
    else "Unknown"
  }

  /** LogLevel::toString: every enumerator has a case, so the fallback is never reached. */
  function ToString(l: Level): (r: string)
    ensures r != "Unknown"
    ensures 4 <= |r| <= 5 && 'A' <= r[0] <= 'Z'
  {
    NameOfValue(Value(l))
  }

  /** Reads a level name back, the inverse of ToString. */
  function LevelFromName(s: string): (r: Option<Level>)
    ensures r.Some? ==> ToString(r.value) == s
  {
    if s == "Debug" then Some(Debug)
    else if s == "Trace" then Some(Trace)
    else if s == "Info" then Some(Info)
    else if s == "Warn" then Some(Warn)
    else if s == "Error" then Some(Error)
    else if s == "Fatal" then Some(Fatal)
    else None
  }

  /** toString reaches its "Unknown" fallback exactly for values no enumerator carries. */
  lemma ToStringFallback(v: int)
    ensures NameOfValue(v) == "Unknown" <==> FromValue(v).None?
    ensures forall l: Level :: ToString(l) != "Unknown"
  {
  }

  /** Every level has its own name, and the name identifies the level. */
  lemma ToStringRoundTrip(l: Level)
    ensures LevelFromName(ToString(l)) == Some(l)
    ensures forall m: Level :: ToString(m) == ToString(l) ==> m == l
  {
  }

  /** No level name holds a closing bracket, so "[" + name + "]" can be parsed back. */
  lemma NamesHaveNoBracket(l: Level)
    ensures forall i :: 0 <= i < |ToString(l)| ==> ToString(l)[i] != ']'
    ensures 4 <= |ToString(l)|
  {
  }

  /** level2Strings. */
  const Level2Strings: map<Level, string> :=
    map[Debug := "DEBUG", Trace := "TRACE", Info := "Info", Warn := "WARN", Error := "ERROR", Fatal := "FATAL"]

  /** level2CompatLevelStrings. */
  const Level2CompatLevelStrings: map<Level, string> :=
    map[Debug := "D", Trace := "T", Info := "I", Warn := "W", Error := "E", Fatal := "F"]

  /** ETerminalColor, without its ColorCount sentinel. */
  datatype TerminalColor = Reset | White | Green | Magenta | Cyan | Blue | Yellow | Red

  /** The integer each colour enumerator receives: consecutive from Reset = 0. */
  function Ordinal(c: TerminalColor): nat
  {
    match c
    case Reset => 0
    case White => 1
    case Green => 2
    case Magenta => 3
    case Cyan => 4
    case Blue => 5
    case Yellow => 6
    case Red => 7
  }

  /** ETerminalColor::ColorCount, the enumerator after the last colour. */
  const ColorCount: nat := 8

  const AllColors: seq<TerminalColor> := [Reset, White, Green, Magenta, Cyan, Blue, Yellow, Red]

  /** The colours are numbered 0, 1, ... in declaration order, and ColorCount counts them. */
  lemma ColorOrdinalsConsecutive()
    ensures |AllColors| == ColorCount
    ensures forall i :: 0 <= i < |AllColors| ==> Ordinal(AllColors[i]) == i
    ensures forall c: TerminalColor :: Ordinal(c) < ColorCount && AllColors[Ordinal(c)] == c
  {
  }

  /** color2TerminalColorCode. */
  const Color2TerminalColorCode: map<TerminalColor, string> :=
    map[
      Reset := [Esc] + "[0m",
      White := [Esc] + "[37m",
      Green := [Esc] + "[32m",
      Magenta := [Esc] + "[35m",
      Cyan := [Esc] + "[36m",
      Blue := [Esc] + "[34m",
      Yellow := [Esc] + "[33m",
      Red := [Esc] + "[31m"
    ]

  /** level2TerminalColor. */
  const Level2TerminalColor: map<Level, TerminalColor> :=
    map[Debug := Cyan, Trace := White, Info := Green, Warn := Yellow, Error := Red, Fatal := Red]

  /** unsafeConstMapGet: `from.find(k)->second`, defined only when the key is present. */
  function UnsafeConstMapGet<K, V>(from: map<K, V>, k: K): V
    requires k in from
  {
    from[k]
  }

  /** level2TerminalColorCode, built entry by entry from the two tables above. */
  const Level2TerminalColorCode: map<Level, string> :=
    map[
      Debug := UnsafeConstMapGet(Color2TerminalColorCode, UnsafeConstMapGet(Level2TerminalColor, Debug)),
      Trace := UnsafeConstMapGet(Color2TerminalColorCode, UnsafeConstMapGet(Level2TerminalColor, Trace)),
      Info := UnsafeConstMapGet(Color2TerminalColorCode, UnsafeConstMapGet(Level2TerminalColor, Info)),
      Warn := UnsafeConstMapGet(Color2TerminalColorCode, UnsafeConstMapGet(Level2TerminalColor, Warn)),
      Error := UnsafeConstMapGet(Color2TerminalColorCode, UnsafeConstMapGet(Level2TerminalColor, Error)),
      Fatal := UnsafeConstMapGet(Color2TerminalColorCode, UnsafeConstMapGet(Level2TerminalColor, Fatal))
    ]

  /** The code that ends every coloured console line. */
  const ResetCode: string := UnsafeConstMapGet(Color2TerminalColorCode, Reset)

  /** Every key the program looks up in a level-indexed table is there. */
  lemma LevelKeysPresent(l: Level)
    ensures l in Level2Strings && l in Level2CompatLevelStrings
    ensures l in Level2TerminalColor && l in Level2TerminalColorCode
  {
    match l
    case Debug =>
    case Trace =>
    case Info =>
    case Warn =>
    case Error =>
    case Fatal =>
  }

  /** Every colour is a key of color2TerminalColorCode. */
  lemma ColorKeyPresent(c: TerminalColor)
    ensures c in Color2TerminalColorCode
  {
    match c
    case Reset =>
    case White =>
    case Green =>
    case Magenta =>
    case Cyan =>
    case Blue =>
    case Yellow =>
    case Red =>
  }

  /** level2Strings[l]. */
  function LevelString(l: Level): string
  {
    LevelKeysPresent(l);
    UnsafeConstMapGet(Level2Strings, l)
  }

  /** level2CompatLevelStrings[l]. */
  function CompatLevelString(l: Level): string
  {
    LevelKeysPresent(l);
    UnsafeConstMapGet(Level2CompatLevelStrings, l)
  }

  /** level2TerminalColor[l]. */
  function LevelColor(l: Level): TerminalColor
  {
    LevelKeysPresent(l);
    UnsafeConstMapGet(Level2TerminalColor, l)
  }

  /** color2TerminalColorCode[c]. */
  function CodeOfColor(c: TerminalColor): string
  {
    ColorKeyPresent(c);
    UnsafeConstMapGet(Color2TerminalColorCode, c)
  }

  /** The colour code a console line for level l starts with: level2TerminalColorCode[l]. */
  function ColorCode(l: Level): (code: string)
    ensures |code| == 5 && code[0] == Esc
    ensures code in Color2TerminalColorCode.Values && code != ResetCode
  {
    LevelKeysPresent(l);
    UnsafeConstMapGet(Level2TerminalColorCode, l)
  }

  /** Every unsafeConstMapGet the program performs finds its key. */
  lemma TablesAreTotal()
    ensures forall l: Level ::
      l in Level2Strings && l in Level2CompatLevelStrings && l in Level2TerminalColor && l in Level2TerminalColorCode
    ensures forall c: TerminalColor :: c in Color2TerminalColorCode
  {
    forall l: Level
      ensures l in Level2Strings && l in Level2CompatLevelStrings
      ensures l in Level2TerminalColor && l in Level2TerminalColorCode
    {
      LevelKeysPresent(l);
    }
    forall c: TerminalColor
      ensures c in Color2TerminalColorCode
    {
      ColorKeyPresent(c);
    }
  }

  /** level2TerminalColorCode is the composition of the two other colour tables. */
  lemma ColorCodeIsComposition(l: Level)
    ensures ColorCode(l) == CodeOfColor(LevelColor(l))
  {
    match l
    case Debug =>
    case Trace =>
    case Info =>
    case Warn =>
    case Error =>
    case Fatal =>
  }

  /** Colour of each level; Error and Fatal are the only two levels sharing one. */
  lemma LevelColors()
    ensures LevelColor(Debug) == Cyan && LevelColor(Trace) == White
    ensures LevelColor(Info) == Green && LevelColor(Warn) == Yellow
    ensures LevelColor(Error) == Red && LevelColor(Fatal) == Red
    ensures forall a: Level, b: Level :: a != b && LevelColor(a) == LevelColor(b) ==> {a, b} == {Error, Fatal}
    ensures forall l: Level :: LevelColor(l) != Reset
  {
  }

  /** The colour an escape code stands for, the inverse of color2TerminalColorCode. */
  function ColorOfCode(code: string): Option<TerminalColor>
  {
    if code == [Esc] + "[0m" then Some(Reset)
    else if code == [Esc] + "[37m" then Some(White)
    else if code == [Esc] + "[32m" then Some(Green)
    else if code == [Esc] + "[35m" then Some(Magenta)
    else if code == [Esc] + "[36m" then Some(Cyan)
    else if code == [Esc] + "[34m" then Some(Blue)
    else if code == [Esc] + "[33m" then Some(Yellow)
    else if code == [Esc] + "[31m" then Some(Red)
    else None
  }

  /** Every escape code decodes back to its colour. */
  lemma ColorCodeRoundTrip(c: TerminalColor)
    ensures ColorOfCode(CodeOfColor(c)) == Some(c)
  {
    var k := CodeOfColor(c);
    match c
    case Reset => assert |k| == 4;
    case White => assert k[3] == '7';
    case Green => assert k[3] == '2';
    case Magenta => assert k[3] == '5';
    case Cyan => assert k[3] == '6';
    case Blue => assert k[3] == '4';
    case Yellow => assert k[3] == '3';
    case Red => assert k[3] == '1';
  }

  /** Distinct colours have distinct escape codes, so the code identifies the colour. */
  lemma ColorCodesDistinct(c: TerminalColor, d: TerminalColor)
    ensures CodeOfColor(c) == CodeOfColor(d) ==> c == d
  {
    ColorCodeRoundTrip(c);
    ColorCodeRoundTrip(d);
  }

  function UpperChar(c: char): char
  {
    if 'a' <= c <= 'z' then (c as int - 32) as char else c
  }

  /** ASCII upper-casing. */
  function Upper(s: string): (r: string)
  {
    seq(|s|, i requires 0 <= i < |s| => UpperChar(s[i]))
  }

  lemma UpperName(l: Level)
    ensures l != Info ==> LevelString(l) == Upper(ToString(l))
    ensures l == Info ==> LevelString(l) == ToString(l) && Upper(ToString(l)) == "INFO"
  {
    var u := Upper(ToString(l));
    match l
    case Debug => assert u == "DEBUG";
    case Trace => assert u == "TRACE";
    case Info => assert u == "INFO";
    case Warn => assert u == "WARN";
    case Error => assert u == "ERROR";
    case Fatal => assert u == "FATAL";
  }

  /**
    level2Strings is the upper-cased toString name for every level except
    Info, whose entry keeps toString's mixed case.
   */
  lemma Level2StringsIsUpperName()
    ensures forall l: Level :: l != Info ==> LevelString(l) == Upper(ToString(l))
    ensures LevelString(Info) == ToString(Info) != Upper(ToString(Info))
  {
    forall l: Level
      ensures l != Info ==> LevelString(l) == Upper(ToString(l))
    {
      UpperName(l);
    }
    UpperName(Info);
  }

  /** Each compact string is the first letter of the level's name, in either table. */
  lemma CompactIsFirstLetter(l: Level)
    ensures |ToString(l)| > 0 && CompatLevelString(l) == [ToString(l)[0]]
    ensures |LevelString(l)| > 0 && CompatLevelString(l) == [LevelString(l)[0]]
  {
    match l
    case Debug =>
    case Trace =>
    case Info =>
    case Warn =>
    case Error =>
    case Fatal =>
  }

  /** The three example entries given next to the table declarations hold. */
  lemma DeclaredExamplesHold()
    ensures LevelString(Debug) == "DEBUG"
    ensures CompatLevelString(Debug) == "D"
    ensures CodeOfColor(Reset) == "\U{1B}[0m"
  {
  }
}

=== FILE: log_core.dfy ===
/**
  The asynchronous log core (AsyncLogControl in log.h, LogCore in the
  header-only variant) as a state machine: the queue, the file appender
  registry, the output trace, the flush task's `last`, and the worker's
  life cycle. Producers, shutdown and worker iterations are interleaved
  as a sequence of events.
 */
module LogCore {
  import opened Text
  import opened Levels
  import opened MessageQueue
  import opened Appenders
  import opened FlushPolicy

  /** Which pop the worker uses: the one written, or the drain-on-shutdown correction. */
  datatype PopPolicy = AsWritten | Draining

  function PopWith(q: Queue, p: PopPolicy): (r: Popped)
    requires CanPop(q)
    ensures r.ok ==> r.elem.Some? && |q.items| > 0 && r.elem.value == q.items[0]
    ensures r.ok ==> r.rest == q.(items := q.items[1..])
  {
    match p
    case AsWritten => Pop(q)
    case Draining => PopDraining(q)
  }

  /** Idle: run() not yet called. Running: the worker loop is live. Exited: the loop has returned. */
  datatype WorkerState = Idle | Running | Exited

  datatype Core = Core(
    queue: Queue,
    files: seq<string>,       // registered file appenders, by file name
    io: seq<IoAction>,        // everything written or flushed so far, in order
    last: Option<int>,        // the flush task's `static last`; None until its first run
    worker: WorkerState,
    gapType: GapType)

  /** A new AsyncLogControl (log.h): its flush gap is a std::size_t. */
  const NewAsyncLogControl: Core := Core(EmptyQueue, [], [], None, Idle, SizeT)

  /** A new LogCore (header-only variant): its flush gap is an int. */
  const NewLogCore: Core := Core(EmptyQueue, [], [], None, Idle, Int32)

  /** addFileAppender. */
  function AddFileAppender(c: Core, filename: string): (r: Core)
    ensures r.files == c.files + [filename]
    ensures r.queue == c.queue && r.io == c.io && r.worker == c.worker
    ensures r.last == c.last && r.gapType == c.gapType
  {
    c.(files := c.files + [filename])
  }

  /** push(msg, level): hand a record to the queue. */
  function CorePush(c: Core, msg: string, level: Level): (r: Core)
    ensures r.queue.items == c.queue.items + [Elem(level, msg)]
    ensures r.queue.shutdown == c.queue.shutdown
    ensures r.io == c.io && r.files == c.files && r.worker == c.worker
    ensures r.last == c.last && r.gapType == c.gapType
  {
    c.(queue := PushMessage(c.queue, msg, level))
  }

  /** The trace one delivered record adds: each file in registry order, then the console. */
  function Delivery(fileCount: nat, e: Elem): (r: seq<IoAction>)
    ensures |r| == fileCount + 1
    ensures forall i :: 0 <= i < fileCount ==> r[i] == FileWrite(i, e.msg)
    ensures r[fileCount] == ConsoleWrite(ConsoleLine(e))
  {
    FanOut(fileCount, e.msg) + [ConsoleWrite(ConsoleLine(e))]
  }

  /**
    One iteration of the worker loop: pop; when pop reports true, fan the
    record out to every file then the console and run the flush task;
    when pop reports false, the loop ends.
   */
  function Step(c: Core, now: int, p: PopPolicy): (r: Core)
    requires c.worker == Running && CanPop(c.queue)
    ensures r.files == c.files && r.gapType == c.gapType
    ensures r.queue.shutdown == c.queue.shutdown
    ensures !PopWith(c.queue, p).ok ==> r.worker == Exited && r.io == c.io
    ensures PopWith(c.queue, p).ok ==>
      var e := c.queue.items[0];
      && r.worker == Running
      && r.queue.items == c.queue.items[1..]
      && |c.io| + |c.files| + 1 <= |r.io|
      && r.io[..|c.io| + |c.files| + 1] == c.io + Delivery(|c.files|, e)
      && r.io[|c.io| + |c.files| + 1..] == (if FlushTask(c.last, now, c.gapType).flushed then FlushAll(|c.files|) else [])
      && r.last == Some(FlushTask(c.last, now, c.gapType).last)
  {
    var popped := PopWith(c.queue, p);
    if !popped.ok then
      c.(queue := popped.rest, worker := Exited)
    else
      var e := popped.elem.value;
      var f := FlushTask(c.last, now, c.gapType);
      var flushes := if f.flushed then FlushAll(|c.files|) else [];
      var io := c.io + Delivery(|c.files|, e) + flushes;
      assert io[..|c.io| + |c.files| + 1] == c.io + Delivery(|c.files|, e);
      c.(queue := popped.rest, io := io, last := Some(f.last))
  }

  /** What the actions of one delivery put on each sink. */
  lemma DeliveryWritten(n: nat, e: Elem, s: Sink)
    ensures Written(Delivery(n, e), s)
      == (if s == Console then [ConsoleLine(e)] else if s.File? && s.index < n then [e.msg] else [])
  {
    var p, line := FanOut(n, e.msg), ConsoleLine(e);
    assert Delivery(n, e) == p + [ConsoleWrite(line)];
    ConsoleWriteWritten(p, line, s);
    FanOutWrites(n, e.msg, s);
    if s == Console {
      assert Written(p, s) == [];
    } else {
      assert Written(p, s) + [] == Written(p, s);
    }
  }

  /** What one delivery, and the flush that may follow it, adds to each sink. */
  lemma DeliveryWrites(c: Core, e: Elem, flushes: seq<IoAction>, s: Sink)
    requires flushes == [] || flushes == FlushAll(|c.files|)
    ensures Written(c.io + Delivery(|c.files|, e) + flushes, s)
      == Written(c.io, s) + (if s == Console then [ConsoleLine(e)]
                             else if s.File? && s.index < |c.files| then [e.msg]
                             else [])
  {
    var n := |c.files|;
    WrittenAppend(c.io + Delivery(n, e), flushes, s);
    WrittenAppend(c.io, Delivery(n, e), s);
    DeliveryWritten(n, e, s);
    if flushes != [] {
      FlushAllWritesNothing(n, s);
    }
    assert Written(flushes, s) == [];
  }

  /** Producer and worker events, interleaved as the scheduler chose. */
  datatype Event =
    | Start              // run()
    | Log(e: Elem)       // a logger pushes a record
    | Stop               // shutdown(), as the destructor does
    | Tick(now: int)     // the worker is scheduled at time `now`

  /**
    One event. A tick does nothing while the worker is not running or
    while pop would still be waiting; a second run() is a programmer error
    and is ignored here.
   */
  function Apply(c: Core, ev: Event, p: PopPolicy): (r: Core)
    ensures r.files == c.files && r.gapType == c.gapType
    ensures |c.io| <= |r.io| && r.io[..|c.io|] == c.io
    ensures !ev.Tick? ==> r.io == c.io && r.last == c.last
    ensures ev.Start? ==> r.queue == c.queue && r.worker == (if c.worker == Idle then Running else c.worker)
    ensures ev.Log? ==> r.queue.items == c.queue.items + [ev.e] && r.queue.shutdown == c.queue.shutdown
                        && r.worker == c.worker
    ensures ev.Stop? ==> r.queue.items == c.queue.items && r.queue.shutdown && r.worker == c.worker
    ensures ev.Tick? && !(c.worker == Running && CanPop(c.queue)) ==> r == c
  {
    match ev
    case Start => if c.worker == Idle then c.(worker := Running) else c
    case Log(e) => c.(queue := Push(c.queue, e))
    case Stop => c.(queue := Shutdown(c.queue))
    case Tick(now) => if c.worker == Running && CanPop(c.queue) then Step(c, now, p) else c
  }

  function Run(c: Core, evs: seq<Event>, p: PopPolicy): (r: Core)
    ensures r.files == c.files && r.gapType == c.gapType
    ensures |c.io| <= |r.io| && r.io[..|c.io|] == c.io
    decreases |evs|
  {
    if |evs| == 0 then c else Run(Apply(c, evs[0], p), evs[1..], p)
  }

  /** The records the events push, in order. */
  function Logged(evs: seq<Event>): seq<Elem>
    decreases |evs|
  {
    if |evs| == 0 then []
    else (if evs[0].Log? then [evs[0].e] else []) + Logged(evs[1..])
  }

  /**
    The delivery invariant relative to the history h of pushed records:
    the console and every registered file hold the first n records of h,
    in order, with n the number of console lines; while the worker has not
    exited, the queue holds exactly the rest of h.
   */
  ghost predicate Consistent(c: Core, h: seq<Elem>)
  {
    var n := |Written(c.io, Console)|;
    && n <= |h|
    && Written(c.io, Console) == ConsoleLines(h[..n])
    && (forall i :: 0 <= i < |c.files| ==> Written(c.io, File(i)) == Msgs(h[..n]))
    && (c.worker != Exited ==> c.queue.items == h[n..])
  }

  lemma FreshCoreConsistent(c: Core)
    requires c.io == [] && c.queue.items == []
    ensures Consistent(c, [])
  {
  }

  /** The exact trace of an iteration whose pop reports true. */
  lemma StepTrace(c: Core, now: int, p: PopPolicy)
    requires c.worker == Running && CanPop(c.queue) && PopWith(c.queue, p).ok
    ensures var f := FlushTask(c.last, now, c.gapType);
      Step(c, now, p).io
        == c.io + Delivery(|c.files|, c.queue.items[0]) + (if f.flushed then FlushAll(|c.files|) else [])
  {
  }

  lemma {:induction false} DeliveredConsistent(c: Core, h: seq<Elem>, now: int, p: PopPolicy)
    requires Consistent(c, h)
    requires c.worker == Running && CanPop(c.queue) && PopWith(c.queue, p).ok
    ensures Consistent(Step(c, now, p), h)
    ensures |Written(Step(c, now, p).io, Console)| == |Written(c.io, Console)| + 1
  {
    var r := Step(c, now, p);
    var n := |Written(c.io, Console)|;
    var e := c.queue.items[0];
    assert e == h[n];
    var f := FlushTask(c.last, now, c.gapType);
    var flushes := if f.flushed then FlushAll(|c.files|) else [];
    StepTrace(c, now, p);
    assert h[..n + 1] == h[..n] + [e];
    assert Written(r.io, Console) == ConsoleLines(h[..n + 1]) by {
      DeliveryWrites(c, e, flushes, Console);
      ConsoleLinesSnoc(h[..n], e);
    }
    forall i | 0 <= i < |r.files|
      ensures Written(r.io, File(i)) == Msgs(h[..n + 1])
    {
      DeliveryWrites(c, e, flushes, File(i));
      MsgsSnoc(h[..n], e);
    }
    assert r.queue.items == h[n + 1..];
  }

  lemma {:induction false} StepConsistent(c: Core, h: seq<Elem>, now: int, p: PopPolicy)
    requires Consistent(c, h)
    requires c.worker == Running && CanPop(c.queue)
    ensures Consistent(Step(c, now, p), h)
    ensures PopWith(c.queue, p).ok ==>
      |Written(Step(c, now, p).io, Console)| == |Written(c.io, Console)| + 1
  {
    if PopWith(c.queue, p).ok {
      DeliveredConsistent(c, h, now, p);
    }
  }

  /** The records a single event pushes. */
  lemma LoggedOne(ev: Event)
    ensures Logged([ev]) == (if ev.Log? then [ev.e] else [])
  {
    assert [ev][1..] == [];
  }

  /** A push extends the history by the record pushed. */
  lemma PushConsistent(c: Core, h: seq<Elem>, e: Elem)
    requires Consistent(c, h)
    ensures Consistent(c.(queue := Push(c.queue, e)), h + [e])
  {
    var n := |Written(c.io, Console)|;
    assert (h + [e])[..n] == h[..n];
    if c.worker != Exited {
      assert (h + [e])[n..] == h[n..] + [e];
    }
  }

  lemma {:induction false} ApplyConsistent(c: Core, h: seq<Elem>, ev: Event, p: PopPolicy)
    requires Consistent(c, h)
    ensures Consistent(Apply(c, ev, p), h + Logged([ev]))
  {
    LoggedOne(ev);
    match ev
    case Start =>
      assert h + Logged([ev]) == h;
    case Stop =>
      assert h + Logged([ev]) == h;
    case Tick(now) =>
      assert h + Logged([ev]) == h;
      if c.worker == Running && CanPop(c.queue) {
        StepConsistent(c, h, now, p);
      }
    case Log(e) =>
      PushConsistent(c, h, e);
  }

  /**
    FIFO delivery under any interleaving: if the invariant holds for the
    records pushed so far, it still holds after any events for those
    records followed by the ones the events push.
   */
  lemma {:induction false} RunConsistent(c: Core, h: seq<Elem>, evs: seq<Event>, p: PopPolicy)
    requires Consistent(c, h)
    ensures Consistent(Run(c, evs, p), h + Logged(evs))
    decreases |evs|
  {
    if |evs| == 0 {
      assert h + Logged(evs) == h;
    } else {
      var ev, rest := evs[0], evs[1..];
      var c1, h1 := Apply(c, ev, p), h + Logged([ev]);
      LoggedCons(evs);
      ApplyConsistent(c, h, ev, p);
      RunConsistent(c1, h1, rest, p);
      assert h + Logged(evs) == h1 + Logged(rest);
    }
  }

  /** The records of a non-empty run: those of its first event, then the rest. */
  lemma LoggedCons(evs: seq<Event>)
    requires |evs| > 0
    ensures Logged(evs) == Logged([evs[0]]) + Logged(evs[1..])
  {
    LoggedOne(evs[0]);
  }

  /**
    Starting from a fresh core with its files registered, every sink ends
    up holding a prefix of the logged records, in the order they were
    logged, with nothing duplicated or reordered.
   */
  lemma FifoDelivery(files: seq<string>, t: GapType, evs: seq<Event>, p: PopPolicy)
    ensures var c := Run(Core(EmptyQueue, files, [], None, Idle, t), evs, p);
      var n := |Written(c.io, Console)|;
      && n <= |Logged(evs)|
      && Written(c.io, Console) == ConsoleLines(Logged(evs)[..n])
      && (forall i :: 0 <= i < |files| ==> Written(c.io, File(i)) == Msgs(Logged(evs)[..n]))
  {
    var c0 := Core(EmptyQueue, files, [], None, Idle, t);
    FreshCoreConsistent(c0);
    RunConsistent(c0, [], evs, p);
    assert [] + Logged(evs) == Logged(evs);
  }

  /** After the loop has returned, nothing more is ever written or flushed. */
  lemma {:induction false} ExitedIsFinal(c: Core, evs: seq<Event>, p: PopPolicy)
    requires c.worker == Exited
    ensures Run(c, evs, p).worker == Exited
    ensures Run(c, evs, p).io == c.io
    decreases |evs|
  {
    if |evs| > 0 {
      ExitedIsFinal(Apply(c, evs[0], p), evs[1..], p);
    }
  }

  /**
    pop as written loses buffered records on shutdown: when shutdown is set
    and records are waiting, the next iteration ends the loop, the front
    record is removed without being written, and no later event writes
    anything, so at least one logged record never reaches any sink.
   */
  lemma ShutdownDropsBuffered(c: Core, h: seq<Elem>, now: int, evs: seq<Event>)
    requires Consistent(c, h)
    requires c.worker == Running && c.queue.shutdown && |c.queue.items| > 0
    ensures var r := Run(c, [Tick(now)] + evs, AsWritten);
      && r.worker == Exited
      && r.io == c.io
      && |Written(r.io, Console)| < |h + Logged(evs)|
  {
    var c1 := Apply(c, Tick(now), AsWritten);
    assert c1 == Step(c, now, AsWritten);
    assert ([Tick(now)] + evs)[1..] == evs;
    ExitedIsFinal(c1, evs, AsWritten);
  }

  function Ticks(times: seq<int>): (r: seq<Event>)
    ensures |r| == |times|
    ensures forall k :: 0 <= k < |times| ==> r[k] == Tick(times[k])
  {
    seq(|times|, k requires 0 <= k < |times| => Tick(times[k]))
  }

  /**
    Drain on shutdown, with the corrected pop: once shutdown is set, one
    more worker iteration than there are buffered records delivers every
    pushed record to every sink and ends the loop.
   */
  lemma {:induction false} DrainingDeliversAll(c: Core, h: seq<Elem>, times: seq<int>)
    requires Consistent(c, h)
    requires c.worker == Running && c.queue.shutdown
    requires |times| > |c.queue.items|
    ensures var r := Run(c, Ticks(times), Draining);
      && r.worker == Exited
      && Written(r.io, Console) == ConsoleLines(h)
      && (forall i :: 0 <= i < |c.files| ==> Written(r.io, File(i)) == Msgs(h))
    decreases |times|
  {
    var c1 := Apply(c, Tick(times[0]), Draining);
    assert c1 == Step(c, times[0], Draining);
    StepConsistent(c, h, times[0], Draining);
    assert Ticks(times)[1..] == Ticks(times[1..]);
    if |c.queue.items| == 0 {
      var n := |Written(c.io, Console)|;
      assert h[n..] == [];
      assert h[..n] == h;
      ExitedIsFinal(c1, Ticks(times[1..]), Draining);
    } else {
      DrainingDeliversAll(c1, h, times[1..]);
    }
  }

  /** The events of the loss scenario bring the core to one buffered record and shutdown set. */
  lemma LossScenarioPrefix(c: Core, e: Elem, evs: seq<Event>, c3: Core, p: PopPolicy)
    requires c == AddFileAppender(NewLogCore, "app.log")
    requires evs == [Start, Log(e), Stop, Tick(0)]
    requires c3 == Core(Queue([e], true), ["app.log"], [], None, Running, Int32)
    ensures Run(c, evs, p) == Run(c3, [Tick(0)], p)
  {
    var c1 := Apply(c, Start, p);
    var c2 := Apply(c1, Log(e), p);
    assert Apply(c2, Stop, p) == c3;
    assert evs[1..] == [Log(e), Stop, Tick(0)];
    assert evs[1..][1..] == [Stop, Tick(0)];
    assert evs[1..][1..][1..] == [Tick(0)];
    assert Run(c, evs, p) == Run(c1, evs[1..], p);
    assert Run(c1, evs[1..], p) == Run(c2, evs[1..][1..], p);
  }

  /** The loss scenario logs exactly its one record. */
  lemma LossScenarioLogged(e: Elem, evs: seq<Event>)
    requires evs == [Start, Log(e), Stop, Tick(0)]
    ensures Logged(evs) == [e]
  {
    var e1, e2, e3 := evs[1..], evs[2..], evs[3..];
    assert e3 == [Tick(0)] && e3[1..] == [];
    assert e2 == [Stop, Tick(0)] && e2[1..] == e3;
    assert e1 == [Log(e), Stop, Tick(0)] && e1[1..] == e2;
    assert Logged(e3) == [] && Logged(e2) == [];
    assert Logged(e1) == [e] + [];
  }

  /**
    The concrete loss: one file registered, the worker started, one Warn
    record logged, shutdown, one worker iteration. The as-written pop ends
    the loop with the record written nowhere; the draining pop writes it.
   */
  lemma ShutdownLossExample(c: Core, e: Elem, evs: seq<Event>)
    requires c == AddFileAppender(NewLogCore, "app.log")
    requires e == Elem(Warn, "saved?")
    requires evs == [Start, Log(e), Stop, Tick(0)]
    ensures var lost := Run(c, evs, AsWritten);
      var kept := Run(c, evs, Draining);
      && Logged(evs) == [e]
      && lost.worker == Exited && Written(lost.io, File(0)) == [] && Written(lost.io, Console) == []
      && Written(kept.io, File(0)) == ["saved?"]
  {
    var c3 := Core(Queue([e], true), ["app.log"], [], None, Running, Int32);
    LossScenarioLogged(e, evs);
    LossScenarioPrefix(c, e, evs, c3, AsWritten);
    LossScenarioPrefix(c, e, evs, c3, Draining);
    assert Run(c3, [Tick(0)], AsWritten) == Step(c3, 0, AsWritten);
    assert Run(c3, [Tick(0)], Draining) == Step(c3, 0, Draining);
    var k := Step(c3, 0, Draining);
    assert k.io == [] + Delivery(1, e) + [];
    DeliveryWrites(c3, e, [], File(0));
    assert Written([], File(0)) == [];
  }
}

=== FILE: loggers.dfy ===
/**
  The logger front doors: AsyncLogger and the log.cc Logger (filter, then
  formatter gate, then push onto the log core), and SyncLogger (filter,
  then formatter, then console and every file directly).
 */
module Loggers {
  import opened Text
  import opened Levels
  import opened MessageQueue
  import opened Appenders
  import opened Formatting
  import opened LogCore

  /** One call to log(level, msg, location). */
  datatype LogCall = LogCall(level: Level, msg: string, loc: SourceLocation)

  /** The buffer AsyncLogger hands its formatter: an empty std::string. */
  const AsyncInitialBuffer: string := ""

  /** std::string(n, '\0'). */
  function NulString(n: nat): (s: string)
    ensures |s| == n
    ensures forall i :: 0 <= i < n ==> s[i] == '\0'
  {
    if n == 0 then "" else NulString(n - 1) + ['\0']
  }

  /** The buffer the log.cc Logger hands its formatter: std::string(512, '\0'). */
  const CoreInitialBuffer: string := NulString(512)

  /** The formatter applied to one call. */
  function FormatCall(config: Config, format: Formatter, buffer: string, call: LogCall): Formatted
  {
    format(config, buffer, call.level, call.msg, call.loc)
  }

  /**
    The record a front door pushes for one call, if any: nothing below the
    filter level, nothing when the formatter says no, and otherwise the
    call's level with whatever the formatter left in the buffer.
   */
  function Submit(config: Config, format: Formatter, buffer: string, call: LogCall): (r: Option<Elem>)
    ensures FilteredOut(config, call.level) ==> r == None
    ensures !FilteredOut(config, call.level) ==>
              (r.Some? <==> FormatCall(config, format, buffer, call).accepted)
    ensures r.Some? ==> r.value.level == call.level
    ensures r.Some? ==> r.value.msg == FormatCall(config, format, buffer, call).output
  {
    if FilteredOut(config, call.level) then None
    else
      var f := FormatCall(config, format, buffer, call);
      if f.accepted then Some(Elem(call.level, f.output)) else None
  }

  /** A logger that pushes onto a log core: its config, formatter and initial buffer. */
  datatype QueueingLogger = QueueingLogger(config: Config, format: Formatter, buffer: string)

  /** AsyncLogger, constructed with a given formatter. */
  function NewAsyncLogger(format: Formatter): (lg: QueueingLogger)
    ensures lg.config == DefaultConfig && lg.buffer == AsyncInitialBuffer
  {
    QueueingLogger(DefaultConfig, format, AsyncInitialBuffer)
  }

  /** The log.cc Logger, constructed with a given formatter. */
  function NewCoreLogger(format: Formatter): (lg: QueueingLogger)
    ensures lg.config == DefaultConfig && |lg.buffer| == 512
    ensures forall i :: 0 <= i < |lg.buffer| ==> lg.buffer[i] == '\0'
  {
    QueueingLogger(DefaultConfig, format, CoreInitialBuffer)
  }

  /** log(level, msg, location): at most one push onto the core; nothing else changes. */
  function QueueLog(lg: QueueingLogger, core: Core, call: LogCall): (r: Core)
    ensures r.queue.shutdown == core.queue.shutdown
    ensures r.io == core.io && r.files == core.files && r.worker == core.worker
    ensures r.last == core.last && r.gapType == core.gapType
    ensures FilteredOut(lg.config, call.level) ==> r == core
    ensures !FilteredOut(lg.config, call.level) && FormatCall(lg.config, lg.format, lg.buffer, call).accepted ==>
              r.queue.items == core.queue.items + [Elem(call.level, FormatCall(lg.config, lg.format, lg.buffer, call).output)]
    ensures !FormatCall(lg.config, lg.format, lg.buffer, call).accepted ==> r == core
  {
    match Submit(lg.config, lg.format, lg.buffer, call)
    case Some(e) => CorePush(core, e.msg, e.level)
    case None => core
  }

  /** The records a sequence of calls hands on, in call order. */
  function Accepted(lg: QueueingLogger, calls: seq<LogCall>): (r: seq<Elem>)
    ensures |r| <= |calls|
    ensures forall k :: 0 <= k < |r| ==> !FilteredOut(lg.config, r[k].level)
    decreases |calls|
  {
    if |calls| == 0 then []
    else
      var head := match Submit(lg.config, lg.format, lg.buffer, calls[0])
                  case Some(e) => [e]
                  case None => [];
      head + Accepted(lg, calls[1..])
  }

  /** Many calls in a row. */
  function QueueLogAll(lg: QueueingLogger, core: Core, calls: seq<LogCall>): (r: Core)
    ensures r.queue.shutdown == core.queue.shutdown
    ensures r.io == core.io && r.files == core.files && r.worker == core.worker
    ensures r.last == core.last && r.gapType == core.gapType
    decreases |calls|
  {
    if |calls| == 0 then core else QueueLogAll(lg, QueueLog(lg, core, calls[0]), calls[1..])
  }

  /**
    Filter and order: a run of calls appends to the queue exactly the
    records that pass the filter and the formatter, in call order.
   */
  lemma {:induction false} QueueLogAllAppends(lg: QueueingLogger, core: Core, calls: seq<LogCall>)
    ensures QueueLogAll(lg, core, calls).queue.items == core.queue.items + Accepted(lg, calls)
    decreases |calls|
  {
    if |calls| > 0 {
      var c1 := QueueLog(lg, core, calls[0]);
      QueueLogAllAppends(lg, c1, calls[1..]);
      match Submit(lg.config, lg.format, lg.buffer, calls[0])
      case Some(e) =>
        assert core.queue.items + [e] + Accepted(lg, calls[1..]) == core.queue.items + Accepted(lg, calls);
      case None =>
        assert Accepted(lg, calls) == Accepted(lg, calls[1..]);
    }
  }

  /** The calls that pass the level filter, with their formatted lines, in order. */
  function CategoryRecords(category: string, config: Config, buffer: string, calls: seq<LogCall>): (r: seq<Elem>)
    decreases |calls|
  {
    if |calls| == 0 then []
    else
      var c := calls[0];
      (if FilteredOut(config, c.level) then []
       else [Elem(c.level, CategoryFormat(category, config, buffer, c.level, c.msg, c.loc).output)])
      + CategoryRecords(category, config, buffer, calls[1..])
  }

  /** With a CategoryFormatter only the level filter decides what is queued. */
  lemma {:induction false} CategoryFormatterQueuesUnfiltered(category: string, lg: QueueingLogger, calls: seq<LogCall>)
    requires lg.format == CategoryFormatter(category)
    ensures Accepted(lg, calls) == CategoryRecords(category, lg.config, lg.buffer, calls)
    decreases |calls|
  {
    if |calls| > 0 {
      CategoryFormatterQueuesUnfiltered(category, lg, calls[1..]);
    }
  }

  /** The levels of a sequence of records. */
  function LevelsOf(es: seq<Elem>): (r: seq<Level>)
    ensures |r| == |es|
    ensures forall k :: 0 <= k < |es| ==> r[k] == es[k].level
  {
    seq(|es|, k requires 0 <= k < |es| => es[k].level)
  }

  /**
    Debug, Warn and Error logged through a CategoryFormatter with the
    filter at Info queue the Warn and Error lines only, in that order.
   */
  lemma FilterScenario(lg: QueueingLogger, calls: seq<LogCall>, loc: SourceLocation)
    requires lg == QueueingLogger(SetLogLevel(DefaultConfig, Info), CategoryFormatter("net"), AsyncInitialBuffer)
    requires calls == [LogCall(Debug, "a", loc), LogCall(Warn, "b", loc), LogCall(Error, "c", loc)]
    ensures var r := QueueLogAll(lg, NewAsyncLogControl, calls);
            && LevelsOf(r.queue.items) == [Warn, Error]
            && LabelOf(r.queue.items[0].msg) == Some(Warn) && EndsWith(r.queue.items[0].msg, "b\n")
            && LabelOf(r.queue.items[1].msg) == Some(Error) && EndsWith(r.queue.items[1].msg, "c\n")
  {
    var lineB := CategoryFormat("net", lg.config, "", Warn, "b", loc).output;
    var lineC := CategoryFormat("net", lg.config, "", Error, "c", loc).output;
    ScenarioQueue(lg, calls, loc);
    CategoryLineLabelAndMessage("net", lg.config, "", Warn, "b", loc);
    CategoryLineLabelAndMessage("net", lg.config, "", Error, "c", loc);
    assert "b" + "\n" == "b\n" && "c" + "\n" == "c\n";
    ScenarioConclusion(QueueLogAll(lg, NewAsyncLogControl, calls).queue.items, lineB, lineC);
  }

  /** The queue after the scenario's three calls. */
  lemma ScenarioQueue(lg: QueueingLogger, calls: seq<LogCall>, loc: SourceLocation)
    requires lg == QueueingLogger(SetLogLevel(DefaultConfig, Info), CategoryFormatter("net"), AsyncInitialBuffer)
    requires calls == [LogCall(Debug, "a", loc), LogCall(Warn, "b", loc), LogCall(Error, "c", loc)]
    ensures QueueLogAll(lg, NewAsyncLogControl, calls).queue.items
            == [Elem(Warn, CategoryFormat("net", lg.config, "", Warn, "b", loc).output),
                Elem(Error, CategoryFormat("net", lg.config, "", Error, "c", loc).output)]
  {
    QueueLogAllAppends(lg, NewAsyncLogControl, calls);
    CategoryFormatterQueuesUnfiltered("net", lg, calls);
    ScenarioRecords(lg.config, calls, CategoryFormat("net", lg.config, "", Warn, "b", loc).output,
                    CategoryFormat("net", lg.config, "", Error, "c", loc).output, loc);
  }

  lemma ScenarioConclusion(items: seq<Elem>, lineB: string, lineC: string)
    requires items == [Elem(Warn, lineB), Elem(Error, lineC)]
    requires LabelOf(lineB) == Some(Warn) && EndsWith(lineB, "b\n")
    requires LabelOf(lineC) == Some(Error) && EndsWith(lineC, "c\n")
    ensures LevelsOf(items) == [Warn, Error]
    ensures LabelOf(items[0].msg) == Some(Warn) && EndsWith(items[0].msg, "b\n")
    ensures LabelOf(items[1].msg) == Some(Error) && EndsWith(items[1].msg, "c\n")
  {
  }

  lemma ScenarioRecords(cfg: Config, calls: seq<LogCall>, lineB: string, lineC: string, loc: SourceLocation)
    requires cfg == SetLogLevel(DefaultConfig, Info)
    requires calls == [LogCall(Debug, "a", loc), LogCall(Warn, "b", loc), LogCall(Error, "c", loc)]
    requires lineB == CategoryFormat("net", cfg, "", Warn, "b", loc).output
    requires lineC == CategoryFormat("net", cfg, "", Error, "c", loc).output
    ensures CategoryRecords("net", cfg, "", calls) == [Elem(Warn, lineB), Elem(Error, lineC)]
  {
    assert calls[1..][1..][1..] == [];
    assert CategoryRecords("net", cfg, "", calls[1..][1..]) == [Elem(Error, lineC)];
    assert CategoryRecords("net", cfg, "", calls[1..]) == [Elem(Warn, lineB), Elem(Error, lineC)];
  }

  /** SyncLogger: config, formatter and its own file appenders. */
  datatype SyncLogger = SyncLogger(config: Config, format: Formatter, files: seq<string>)

  /**
    The record SyncLogger builds: the formatter's output at the call's
    level. When the formatter accepts, it is the record a queueing logger
    with the same config and formatter would push.
   */
  function SyncRecord(lg: SyncLogger, call: LogCall): (r: Elem)
    ensures r.level == call.level
    ensures !FilteredOut(lg.config, call.level) && FormatCall(lg.config, lg.format, "", call).accepted ==>
              Submit(lg.config, lg.format, "", call) == Some(r)
  {
    Elem(call.level, FormatCall(lg.config, lg.format, "", call).output)
  }

  /**
    SyncLogger::log as an extension of the output trace: below the filter
    nothing; otherwise the formatted line goes to the console first and
    then to every file appender in order, whatever the formatter answered.
   */
  function SyncLog(lg: SyncLogger, io: seq<IoAction>, call: LogCall): (r: seq<IoAction>)
    ensures FilteredOut(lg.config, call.level) ==> r == io
    ensures !FilteredOut(lg.config, call.level) ==>
              && |r| == |io| + 1 + |lg.files|
              && r[..|io|] == io
              && r[|io|] == ConsoleWrite(ConsoleLine(Elem(call.level, FormatCall(lg.config, lg.format, "", call).output)))
              && forall i :: 0 <= i < |lg.files| ==>
                   r[|io| + 1 + i] == FileWrite(i, FormatCall(lg.config, lg.format, "", call).output)
  {
    if FilteredOut(lg.config, call.level) then io
    else
      var e := SyncRecord(lg, call);
      var fan := FanOut(|lg.files|, e.msg);
      SnocThenAt(io, ConsoleWrite(ConsoleLine(e)), fan);
      io + [ConsoleWrite(ConsoleLine(e))] + fan
  }

  /** Positions in a trace extended by one action and then a tail. */
  lemma SnocThenAt(io: seq<IoAction>, x: IoAction, tail: seq<IoAction>)
    ensures |io + [x] + tail| == |io| + 1 + |tail|
    ensures (io + [x] + tail)[..|io|] == io
    ensures (io + [x] + tail)[|io|] == x
    ensures forall i :: 0 <= i < |tail| ==> (io + [x] + tail)[|io| + 1 + i] == tail[i]
  {
  }

  /**
    SyncLogger ignores the formatter's verdict: two SyncLoggers whose
    formatters leave the same text write the same trace, whatever each
    formatter answered.
   */
  lemma SyncLogIgnoresVerdict(lg: SyncLogger, other: SyncLogger, io: seq<IoAction>, call: LogCall)
    requires other.config == lg.config && other.files == lg.files
    requires FormatCall(other.config, other.format, "", call).output == FormatCall(lg.config, lg.format, "", call).output
    requires FormatCall(other.config, other.format, "", call).accepted != FormatCall(lg.config, lg.format, "", call).accepted
    ensures SyncLog(other, io, call) == SyncLog(lg, io, call)
  {
  }

  /** What each sink receives from one SyncLogger call. */
  lemma SyncLogWrites(lg: SyncLogger, io: seq<IoAction>, call: LogCall, s: Sink)
    requires !FilteredOut(lg.config, call.level)
    ensures Written(SyncLog(lg, io, call), s)
            == Written(io, s)
               + (if s == Console then [ConsoleLine(SyncRecord(lg, call))]
                  else if s.File? && s.index < |lg.files| then [SyncRecord(lg, call).msg]
                  else [])
  {
    var e := SyncRecord(lg, call);
    ConsoleThenFanOut(io, ConsoleLine(e), |lg.files|, e.msg, s);
  }

  /**
    The two front doors differ on a formatter that answers false: the
    queueing logger pushes nothing, SyncLogger writes the line anyway.
   */
  lemma RejectedFormatVerdicts(config: Config, format: Formatter, files: seq<string>, core: Core,
                               io: seq<IoAction>, call: LogCall, s: Sink)
    requires !FilteredOut(config, call.level)
    requires !FormatCall(config, format, "", call).accepted
    ensures QueueLog(QueueingLogger(config, format, AsyncInitialBuffer), core, call) == core
    ensures |SyncLog(SyncLogger(config, format, files), io, call)| == |io| + 1 + |files|
    ensures var line := FormatCall(config, format, "", call).output;
            Written(SyncLog(SyncLogger(config, format, files), io, call), s)
            == Written(io, s) + (if s == Console then [ConsoleLine(Elem(call.level, line))]
                                 else if s.File? && s.index < |files| then [line]
                                 else [])
  {
    SyncLogWrites(SyncLogger(config, format, files), io, call, s);
  }
}

=== FILE: message_queue.dfy ===
/**
  MessageQueue as a sequential state machine: a FIFO of (level, message)
  records and the one-way shutdown flag. The condition-variable wait in
  pop becomes its enabling condition CanPop; locking is not modelled.
 */
module MessageQueue {
  import opened Text
  import opened Levels

  /** MessageElem / MessageQueue::Elem. */
  datatype Elem = Elem(level: Level, msg: string)

  datatype Queue = Queue(items: seq<Elem>, shutdown: bool)

  /** A freshly constructed queue. */
  const EmptyQueue: Queue := Queue([], false)

  /** The level the push overloads use when the caller gives none. */
  const DefaultPushLevel: Level := Info

  /** push(Elem&&): append at the back. */
  function Push(q: Queue, e: Elem): (r: Queue)
    ensures r.items == q.items + [e]
    ensures r.shutdown == q.shutdown
  {
    q.(items := q.items + [e])
  }

  /** push(string_view, level) and push(string&&, level): append (level, msg). */
  function PushMessage(q: Queue, msg: string, level: Level): (r: Queue)
    ensures r.items == q.items + [Elem(level, msg)]
    ensures r.shutdown == q.shutdown
  {
    Push(q, Elem(level, msg))
  }

  /** shutdown(): raise the flag; the contents stay. */
  function Shutdown(q: Queue): (r: Queue)
    ensures r.shutdown
    ensures r.items == q.items
  {
    q.(shutdown := true)
  }

  lemma ShutdownIdempotent(q: Queue)
    ensures Shutdown(Shutdown(q)) == Shutdown(q)
    ensures q.shutdown ==> Shutdown(q) == q
  {
  }

  /** The predicate pop waits on: it returns only once this holds. */
  predicate CanPop(q: Queue)
  {
    |q.items| > 0 || q.shutdown
  }

  /**
    What pop reports: its boolean result, the element written to its
    out-parameter (None when the out-parameter is left untouched) and the
    queue afterwards.
   */
  datatype Popped = Popped(ok: bool, elem: Option<Elem>, rest: Queue)

  /**
    pop as written. Once shutdown is set it returns false even when it
    takes an element: the front record is removed but reported as "closed".
   */
  function Pop(q: Queue): (r: Popped)
    requires CanPop(q)
    ensures r.ok <==> !q.shutdown
    ensures r.rest.shutdown == q.shutdown
    ensures |q.items| == 0 ==> r.elem == None && r.rest == q
    ensures |q.items| > 0 ==> r.elem == Some(q.items[0]) && r.rest.items == q.items[1..]
  {
    if q.shutdown && |q.items| == 0 then Popped(false, None, q)
    else if q.shutdown then Popped(false, Some(q.items[0]), q.(items := q.items[1..]))
    else Popped(true, Some(q.items[0]), q.(items := q.items[1..]))
  }

  /**
    pop with drain-on-shutdown: records still buffered when shutdown is
    raised are handed out, and "closed" is reported only for an empty queue.
   */
  function PopDraining(q: Queue): (r: Popped)
    requires CanPop(q)
    ensures r.ok <==> |q.items| > 0
    ensures r.rest.shutdown == q.shutdown
    ensures |q.items| == 0 ==> r.elem == None && r.rest == q
    ensures |q.items| > 0 ==> r.elem == Some(q.items[0]) && r.rest.items == q.items[1..]
  {
    if |q.items| == 0 then Popped(false, None, q)
    else Popped(true, Some(q.items[0]), q.(items := q.items[1..]))
  }

  /** Without shutdown the two pops agree. */
  lemma PopsAgreeBeforeShutdown(q: Queue)
    requires CanPop(q) && !q.shutdown
    ensures Pop(q) == PopDraining(q)
  {
  }

  /** Pushing behind a non-empty queue does not change what pop hands out next. */
  lemma PushKeepsFront(q: Queue, e: Elem)
    requires |q.items| > 0
    ensures Pop(Push(q, e)).elem == Pop(q).elem
    ensures Pop(Push(q, e)).rest == Push(Pop(q).rest, e)
  {
    assert (q.items + [e])[1..] == q.items[1..] + [e];
  }

  /** Pushes every element of xs, front first. */
  function PushAll(q: Queue, xs: seq<Elem>): (r: Queue)
    ensures r.items == q.items + xs
    ensures r.shutdown == q.shutdown
    decreases |xs|
  {
    if |xs| == 0 then q
    else
      var r := PushAll(Push(q, xs[0]), xs[1..]);
      assert q.items + [xs[0]] + xs[1..] == q.items + xs;
      r
  }

  /** The elements n successive pops hand out, and the queue they leave. */
  datatype Drained = Drained(taken: seq<Elem>, rest: Queue)

  /** n successive successful pops of an open queue. */
  function PopN(q: Queue, n: nat): (r: Drained)
    requires !q.shutdown && n <= |q.items|
    ensures r.taken == q.items[..n]
    ensures r.rest == q.(items := q.items[n..])
    decreases n
  {
    if n == 0 then Drained([], q)
    else
      var p := Pop(q);
      var d := PopN(p.rest, n - 1);
      assert q.items[..n] == [q.items[0]] + q.items[1..][..n - 1];
      assert q.items[n..] == q.items[1..][n - 1..];
      Drained([p.elem.value] + d.taken, d.rest)
  }

  /**
    FIFO: whatever is pushed onto an open queue is popped back in the same
    order, after the records that were already waiting.
   */
  lemma FifoOrder(q: Queue, xs: seq<Elem>)
    requires !q.shutdown
    ensures PopN(PushAll(q, xs), |q.items| + |xs|).taken == q.items + xs
    ensures PopN(PushAll(q, xs), |q.items| + |xs|).rest == EmptyQueue
  {
    var r := PushAll(q, xs);
    assert r.items[..|q.items| + |xs|] == r.items;
  }
}

=== FILE: mirror_logger.dfy ===
/**
  The Logger that src/log.cpp implements out of line: log and
  logWithCategory render a line with std::format and hand it to doLog,
  which queues it and, when bToStdOut is set, also prints it in its
  level's colour. The class declaration (msgQueue, bToStdOut) is not part
  of this model; its queue is the log.cc MessageQueue, whose push(msg)
  overload defaults the level to Info.
 */
module MirrorLogger {
  import opened Text
  import opened Levels
  import opened MessageQueue
  import opened Formatting

  datatype MirrorLogger = MirrorLogger(config: Config, queue: Queue, toStdOut: bool, stdout: seq<string>)

  /** The level a dispatch queues a record at: doLog as written, or keeping the caller's level. */
  datatype Dispatch = AsWritten | KeepLevel

  /** What doLog prints on stdout: the colour, the C-string view of the line, the reset code. */
  function StdoutText(level: Level, msg: string): (t: string)
    ensures |t| == |CString(msg)| + 9
    ensures t[..5] == ColorCode(level)
    ensures t[5..|t| - 4] == CString(msg)
    ensures t[|t| - 4..] == ResetCode
  {
    ColorCode(level) + CString(msg) + ResetCode
  }

  /** A line with no NUL character is printed whole. */
  lemma StdoutTextWhole(level: Level, msg: string)
    requires forall i :: 0 <= i < |msg| ==> msg[i] != '\0'
    ensures StdoutText(level, msg) == ColorCode(level) + msg + ResetCode
  {
    var c := CString(msg);
    if |c| < |msg| {
      assert false;
    }
    assert c == msg[..|c|];
  }

  /** doLog as written: `msgQueue.push(msg)` queues the line at the default level Info. */
  function DoLog(lg: MirrorLogger, level: Level, msg: string): (r: MirrorLogger)
    ensures r.queue.items == lg.queue.items + [Elem(DefaultPushLevel, msg)]
    ensures r.queue.shutdown == lg.queue.shutdown
    ensures lg.toStdOut ==> r.stdout == lg.stdout + [StdoutText(level, msg)]
    ensures !lg.toStdOut ==> r.stdout == lg.stdout
    ensures r.config == lg.config && r.toStdOut == lg.toStdOut
  {
    var q := PushMessage(lg.queue, msg, DefaultPushLevel);
    if lg.toStdOut then lg.(queue := q, stdout := lg.stdout + [StdoutText(level, msg)])
    else lg.(queue := q)
  }

  /** doLog queueing the line at the level it was logged at, `msgQueue.push(msg, level)`. */
  function DoLogKeepingLevel(lg: MirrorLogger, level: Level, msg: string): (r: MirrorLogger)
    ensures r.queue.items == lg.queue.items + [Elem(level, msg)]
    ensures r.queue.shutdown == lg.queue.shutdown
    ensures lg.toStdOut ==> r.stdout == lg.stdout + [StdoutText(level, msg)]
    ensures !lg.toStdOut ==> r.stdout == lg.stdout
    ensures r.config == lg.config && r.toStdOut == lg.toStdOut
  {
    var q := PushMessage(lg.queue, msg, level);
    if lg.toStdOut then lg.(queue := q, stdout := lg.stdout + [StdoutText(level, msg)])
    else lg.(queue := q)
  }

  /** The level a record logged at `level` is queued at. */
  function QueuedLevel(d: Dispatch, level: Level): Level
  {
    match d
    case AsWritten => DefaultPushLevel
    case KeepLevel => level
  }

  function Send(lg: MirrorLogger, level: Level, msg: string, d: Dispatch): (r: MirrorLogger)
    ensures r.queue.items == lg.queue.items + [Elem(QueuedLevel(d, level), msg)]
    ensures r.stdout == lg.stdout + (if lg.toStdOut then [StdoutText(level, msg)] else [])
    ensures r.config == lg.config && r.toStdOut == lg.toStdOut && r.queue.shutdown == lg.queue.shutdown
  {
    match d
    case AsWritten => DoLog(lg, level, msg)
    case KeepLevel => DoLogKeepingLevel(lg, level, msg)
  }

  /**
    doLog as written loses the level: a Warn line is queued as Info, so a
    worker that colours by the queued level would print it green, while
    the immediate stdout copy is yellow.
   */
  lemma DoLogQueuesAtInfo(lg: MirrorLogger, msg: string)
    ensures DoLog(lg, Warn, msg).queue.items[|lg.queue.items|] == Elem(Info, msg)
    ensures ColorCode(Info) != ColorCode(Warn)
  {
    ColorCodeIsComposition(Info);
    ColorCodeIsComposition(Warn);
    LevelColors();
    ColorCodeRoundTrip(Green);
    ColorCodeRoundTrip(Yellow);
  }

  /** The corrected doLog queues the record at its own level, whatever the level. */
  lemma DoLogKeepingLevelKeepsLevel(lg: MirrorLogger, level: Level, msg: string)
    ensures DoLogKeepingLevel(lg, level, msg).queue.items[|lg.queue.items|].level == level
    ensures level != Info ==> DoLog(lg, level, msg).queue.items[|lg.queue.items|].level != level
  {
  }

  /** The line Logger::log renders: detailed at or above logDetailLevel, compact below. */
  function LogLine(config: Config, level: Level, msg: string, loc: SourceLocation): (line: string)
    ensures Detailed(config, level) ==>
              line == "[" + ToString(level) + "]\t" + loc.fileName + ":" + LineText(loc) + ":"
                      + ColumnText(loc) + " [" + loc.functionName + "]: " + msg + "\n"
    ensures !Detailed(config, level) ==> line == "[" + ToString(level) + "]\t" + msg + "\n"
  {
    if Detailed(config, level) then DetailedLine(ToString(level), loc, msg)
    else CompactLine(ToString(level), msg)
  }

  /** Logger::log: nothing below logLevel; otherwise one rendered line through doLog. */
  function Log(lg: MirrorLogger, level: Level, msg: string, loc: SourceLocation, d: Dispatch): (r: MirrorLogger)
    ensures FilteredOut(lg.config, level) ==> r == lg
    ensures !FilteredOut(lg.config, level) ==>
              r.queue.items == lg.queue.items + [Elem(QueuedLevel(d, level), LogLine(lg.config, level, msg, loc))]
    ensures !FilteredOut(lg.config, level) ==>
              r.stdout == lg.stdout + (if lg.toStdOut then [StdoutText(level, LogLine(lg.config, level, msg, loc))] else [])
    ensures r.config == lg.config && r.toStdOut == lg.toStdOut && r.queue.shutdown == lg.queue.shutdown
  {
    if FilteredOut(lg.config, level) then lg
    else Send(lg, level, LogLine(lg.config, level, msg, loc), d)
  }

  /** Both Logger::log templates label the line with the level and end it with the message. */
  lemma LogLineLabelAndMessage(config: Config, level: Level, msg: string, loc: SourceLocation)
    ensures LabelOf(LogLine(config, level, msg, loc)) == Some(level)
    ensures EndsWith(LogLine(config, level, msg, loc), msg + "\n")
  {
    var name := ToString(level);
    if Detailed(config, level) {
      var args := [name, loc.fileName, LineText(loc), ColumnText(loc), loc.functionName, msg];
      DetailedTemplateSplit();
      FormatExact(DetailedTemplate, DetailedPieces, args);
      LabelOfInterleave(level, DetailedPieces, args);
      InterleaveEnds(DetailedPieces, args);
    } else {
      var args := [name, msg];
      CompactTemplateSplit();
      FormatExact(CompactTemplate, CompactPieces, args);
      LabelOfInterleave(level, CompactPieces, args);
      InterleaveEnds(CompactPieces, args);
    }
  }

  /**
    The line logWithCategory renders, as written. The compact branch passes
    four arguments (colour, level name, category, message) to a template
    with three fields, so the message is never printed and the colour code
    takes the level's place in the brackets.
   */
  function CategoryLineAsWritten(config: Config, level: Level, category: string, msg: string,
                                 loc: SourceLocation): (line: string)
    ensures Detailed(config, level) ==>
              line == "[" + ToString(level) + "]\t" + category + "\t" + loc.fileName + ":" + LineText(loc) + ":"
                      + ColumnText(loc) + " [" + loc.functionName + "]: " + msg + "\n"
    ensures !Detailed(config, level) ==> line == "[" + ColorCode(level) + "] " + ToString(level) + category + "\n"
  {
    if Detailed(config, level) then DetailedCategoryLine(ToString(level), category, loc, msg)
    else CompactCategoryLine([ColorCode(level), ToString(level), category, msg])
  }

  /** Logger::logWithCategory as written. */
  function LogWithCategory(lg: MirrorLogger, level: Level, category: string, msg: string, loc: SourceLocation,
                           d: Dispatch): (r: MirrorLogger)
    ensures FilteredOut(lg.config, level) ==> r == lg
    ensures !FilteredOut(lg.config, level) ==>
              r.queue.items == lg.queue.items
                               + [Elem(QueuedLevel(d, level), CategoryLineAsWritten(lg.config, level, category, msg, loc))]
    ensures !FilteredOut(lg.config, level) ==>
              r.stdout == lg.stdout
                          + (if lg.toStdOut then [StdoutText(level, CategoryLineAsWritten(lg.config, level, category, msg, loc))]
                             else [])
    ensures r.config == lg.config && r.toStdOut == lg.toStdOut && r.queue.shutdown == lg.queue.shutdown
  {
    if FilteredOut(lg.config, level) then lg
    else Send(lg, level, CategoryLineAsWritten(lg.config, level, category, msg, loc), d)
  }

  /** No level name begins with the escape character. */
  lemma NamesStartWithLetter(l: Level)
    ensures |ToString(l)| > 0 && ToString(l)[0] != Esc
  {
    match l
    case Debug => assert ToString(l) == "Debug";
    case Trace => assert ToString(l) == "Trace";
    case Info => assert ToString(l) == "Info";
    case Warn => assert ToString(l) == "Warn";
    case Error => assert ToString(l) == "Error";
    case Fatal => assert ToString(l) == "Fatal";
  }

  /** A bracketed label that opens with the escape character names no level. */
  lemma LabelOfEscape(line: string)
    requires |line| > 1 && line[0] == '[' && line[1] == Esc
    ensures LabelOf(line) == None
  {
    match IndexOf(line, ']', 1)
    case Some(k) =>
      assert line[1..k][0] == Esc;
      if LevelFromName(line[1..k]).Some? {
        NamesStartWithLetter(LevelFromName(line[1..k]).value);
      }
    case None =>
  }

  /**
    Below logDetailLevel the as-written category line is the same whatever
    the message, and its label is the colour code, which names no level.
   */
  lemma CompactCategoryDropsMessage(config: Config, level: Level, category: string, m1: string, m2: string,
                                    loc: SourceLocation)
    requires !Detailed(config, level)
    ensures CategoryLineAsWritten(config, level, category, m1, loc) == CategoryLineAsWritten(config, level, category, m2, loc)
    ensures LabelOf(CategoryLineAsWritten(config, level, category, m1, loc)) == None
  {
    var line := CategoryLineAsWritten(config, level, category, m1, loc);
    assert line[1] == ColorCode(level)[0];
    LabelOfEscape(line);
  }

  /** With the default Config an Info record logged with a category loses its message. */
  lemma CompactCategoryExample(loc: SourceLocation)
    ensures CategoryLineAsWritten(DefaultConfig, Info, "net", "disk full", loc)
         == CategoryLineAsWritten(DefaultConfig, Info, "net", "", loc)
    ensures CategoryLineAsWritten(DefaultConfig, Info, "net", "disk full", loc)
         == "[" + ColorCode(Info) + "] Infonet\n"
  {
    CompactCategoryDropsMessage(DefaultConfig, Info, "net", "disk full", "", loc);
    assert ToString(Info) == "Info";
    InfoNetSuffix("[" + ColorCode(Info));
  }

  /** The literal tail of the example line, behind any prefix. */
  lemma InfoNetSuffix(x: string)
    ensures x + "] " + "Info" + "net" + "\n" == x + "] Infonet\n"
  {
    assert "] " + "Info" + "net" + "\n" == "] Infonet\n";
  }

  /**
    logWithCategory with the intended compact template: the same line the
    log.cc CategoryFormatter renders, queued at the record's level.
   */
  function LogWithCategoryCorrected(lg: MirrorLogger, level: Level, category: string, msg: string,
                                    loc: SourceLocation): (r: MirrorLogger)
    ensures FilteredOut(lg.config, level) ==> r == lg
    ensures !FilteredOut(lg.config, level) ==>
              r.queue.items == lg.queue.items
                               + [Elem(level, CategoryFormat(category, lg.config, "", level, msg, loc).output)]
    ensures !FilteredOut(lg.config, level) ==>
              r.stdout == lg.stdout
                          + (if lg.toStdOut then [StdoutText(level, CategoryFormat(category, lg.config, "", level, msg, loc).output)]
                             else [])
    ensures r.config == lg.config && r.toStdOut == lg.toStdOut && r.queue.shutdown == lg.queue.shutdown
  {
    if FilteredOut(lg.config, level) then lg
    else DoLogKeepingLevel(lg, level, CategoryFormat(category, lg.config, "", level, msg, loc).output)
  }

  /**
    The corrected line carries the level as its label and ends with the
    message, in both modes; in detailed mode it is the line logWithCategory
    already renders.
   */
  lemma CorrectedCategoryLine(lg: MirrorLogger, level: Level, category: string, msg: string, loc: SourceLocation)
    requires !FilteredOut(lg.config, level)
    ensures var e := LogWithCategoryCorrected(lg, level, category, msg, loc).queue.items[|lg.queue.items|];
            && e.level == level
            && LabelOf(e.msg) == Some(level)
            && EndsWith(e.msg, msg + "\n")
    ensures Detailed(lg.config, level) ==>
              CategoryFormat(category, lg.config, "", level, msg, loc).output
              == CategoryLineAsWritten(lg.config, level, category, msg, loc)
  {
    CategoryLineLabelAndMessage(category, lg.config, "", level, msg, loc);
  }
}

=== FILE: text.dfy ===
/**
  Text utilities shared by the logging model: an optional value, the escape
  character of terminal colour codes, decimal
  rendering of unsigned integers, the subset of std::format the logger's
  templates use, and the C-string view of a std::string.
 */
module Text {

  datatype Option<+T> = None | Some(value: T)

  /** The escape character that starts an ANSI colour sequence ("\033"). */
  const Esc: char := 27 as char

  /** Character of a single decimal digit. */
  function DigitChar(d: nat): (c: char)
    requires d < 10
    ensures '0' <= c <= '9'
  {
    "0123456789"[d]
  }

  /** Value of a decimal digit character. */
  function DigitValue(c: char): nat
    requires '0' <= c <= '9'
  {
    (c as int - '0' as int) as nat
  }

  /** std::format("{}", n) for an unsigned integer: shortest decimal spelling. */
  function NatToString(n: nat): (s: string)
    ensures 1 <= |s|
    ensures forall i :: 0 <= i < |s| ==> '0' <= s[i] <= '9'
    ensures |s| > 1 ==> s[0] != '0'
  {
    if n < 10 then [DigitChar(n)] else NatToString(n / 10) + [DigitChar(n % 10)]
  }

  /** Reads a string of decimal digits back as a number. */
  function DecimalValue(s: string): nat
    requires forall i :: 0 <= i < |s| ==> '0' <= s[i] <= '9'
  {
    if |s| == 0 then 0 else DecimalValue(s[..|s| - 1]) * 10 + DigitValue(s[|s| - 1])
  }

  /** Decimal rendering loses nothing: reading it back gives the number. */
  lemma {:induction false} DecimalRoundTrip(n: nat)
    ensures DecimalValue(NatToString(n)) == n
  {
    var s := NatToString(n);
    if n >= 10 {
      DecimalRoundTrip(n / 10);
      assert s[..|s| - 1] == NatToString(n / 10);
      assert DigitValue(DigitChar(n % 10)) == n % 10;
    } else {
      assert DigitValue(DigitChar(n)) == n;
    }
  }

  /** Number of "{}" replacement fields in a format string. */
  function Holes(t: string): nat
  {
    if |t| == 0 then 0
    else if 2 <= |t| && t[0] == '{' && t[1] == '}' then 1 + Holes(t[2..])
    else Holes(t[1..])
  }

  /**
    std::format restricted to what the logger's templates use: each "{}"
    is replaced by the next argument (already rendered as text), literal
    text is copied, and arguments beyond the last "{}" are ignored, as
    std::format ignores surplus arguments.
   */
  function StdFormat(t: string, args: seq<string>): string
    requires Holes(t) <= |args|
  {
    if |t| == 0 then ""
    else if 2 <= |t| && t[0] == '{' && t[1] == '}' then args[0] + StdFormat(t[2..], args[1..])
    else [t[0]] + StdFormat(t[1..], args)
  }

  /** Text without any opening brace, so it holds no replacement field. */
  predicate Plain(s: string)
  {
    forall i :: 0 <= i < |s| ==> s[i] != '{'
  }

  /** n replacement fields, the argument list of a template skeleton. */
  function HoleArgs(n: nat): (r: seq<string>)
    ensures |r| == n
    ensures forall i :: 0 <= i < n ==> r[i] == "{}"
  {
    seq(n, i => "{}")
  }

  /** lits[0] + args[0] + lits[1] + ... + args[n-1] + lits[n]. */
  function Interleave(lits: seq<string>, args: seq<string>): string
    requires |lits| == |args| + 1
  {
    if |args| == 0 then lits[0] else lits[0] + args[0] + Interleave(lits[1..], args[1..])
  }

  /** One unrolling of Interleave at offset k. */
  lemma InterleaveStep(lits: seq<string>, args: seq<string>, k: nat)
    requires |lits| == |args| + 1 && k < |args|
    ensures Interleave(lits[k..], args[k..]) == lits[k] + args[k] + Interleave(lits[k + 1..], args[k + 1..])
  {
    assert lits[k..][1..] == lits[k + 1..];
    assert args[k..][1..] == args[k + 1..];
  }

  /** The first field of a non-empty interleave. */
  lemma InterleaveHead(lits: seq<string>, args: seq<string>)
    requires |lits| == |args| + 1 && 0 < |args|
    ensures Interleave(lits, args) == lits[0] + args[0] + Interleave(lits[1..], args[1..])
  {
  }

  /** Unrolling Interleave one field further behind an already spelled-out prefix. */
  lemma InterleavePrefix(lits: seq<string>, args: seq<string>, k: nat, prefix: string)
    requires |lits| == |args| + 1 && k < |args|
    requires Interleave(lits, args) == prefix + Interleave(lits[k..], args[k..])
    ensures Interleave(lits, args) == prefix + lits[k] + args[k] + Interleave(lits[k + 1..], args[k + 1..])
  {
    InterleaveStep(lits, args, k);
  }

  /** Past the last argument only the final literal is left. */
  lemma InterleaveLast(lits: seq<string>, args: seq<string>)
    requires |lits| == |args| + 1
    ensures Interleave(lits[|args|..], args[|args|..]) == lits[|args|]
  {
    assert args[|args|..] == [];
  }

  lemma {:induction false} HolesOfPlain(lit: string, rest: string)
    requires Plain(lit)
    ensures Holes(lit + rest) == Holes(rest)
  {
    if |lit| > 0 {
      assert (lit + rest)[1..] == lit[1..] + rest;
      HolesOfPlain(lit[1..], rest);
    } else {
      assert lit + rest == rest;
    }
  }

  lemma {:induction false} FormatPlain(lit: string, rest: string, args: seq<string>)
    requires Plain(lit)
    requires Holes(rest) <= |args|
    ensures Holes(lit + rest) <= |args|
    ensures StdFormat(lit + rest, args) == lit + StdFormat(rest, args)
  {
    HolesOfPlain(lit, rest);
    if |lit| > 0 {
      var t := lit + rest;
      assert t[0] == lit[0] && t[0] != '{';
      assert t[1..] == lit[1..] + rest;
      assert Plain(lit[1..]);
      assert StdFormat(t, args) == [t[0]] + StdFormat(t[1..], args);
      FormatPlain(lit[1..], rest, args);
      assert lit == [lit[0]] + lit[1..];
    } else {
      assert lit + rest == rest;
    }
  }

  /**
    A template whose literal pieces hold no braces formats to the pieces
    interleaved with the arguments; surplus arguments leave no trace.
   */
  lemma {:induction false} FormatInterleave(lits: seq<string>, args: seq<string>, surplus: seq<string>)
    requires |lits| == |args| + 1
    requires forall i :: 0 <= i < |lits| ==> Plain(lits[i])
    ensures Holes(Interleave(lits, HoleArgs(|args|))) == |args|
    ensures StdFormat(Interleave(lits, HoleArgs(|args|)), args + surplus) == Interleave(lits, args)
  {
    var t := Interleave(lits, HoleArgs(|args|));
    if |args| == 0 {
      assert t == lits[0] + "";
      HolesOfPlain(lits[0], "");
      FormatPlain(lits[0], "", surplus);
      assert args + surplus == surplus;
    } else {
      var tail := Interleave(lits[1..], HoleArgs(|args| - 1));
      assert HoleArgs(|args|)[1..] == HoleArgs(|args| - 1);
      assert t == lits[0] + ("{}" + tail);
      FormatInterleave(lits[1..], args[1..], surplus);
      assert (args + surplus)[1..] == args[1..] + surplus;
      assert ("{}" + tail)[2..] == tail;
      HolesOfPlain(lits[0], "{}" + tail);
      FormatPlain(lits[0], "{}" + tail, args + surplus);
      assert lits[0] + args[0] + Interleave(lits[1..], args[1..])
          == lits[0] + (args[0] + Interleave(lits[1..], args[1..]));
    }
  }

  /** A template given as its pieces, formatted with exactly as many arguments as it has fields. */
  lemma FormatExact(t: string, lits: seq<string>, args: seq<string>)
    requires |lits| == |args| + 1
    requires forall i :: 0 <= i < |lits| ==> Plain(lits[i])
    requires t == Interleave(lits, HoleArgs(|args|))
    ensures Holes(t) == |args|
    ensures StdFormat(t, args) == Interleave(lits, args)
  {
    FormatInterleave(lits, args, []);
    assert args + [] == args;
  }

  /** Formatted text begins with the first literal piece. */
  lemma InterleaveFirst(lits: seq<string>, args: seq<string>)
    requires |lits| == |args| + 1 && |lits[0]| > 0
    ensures |Interleave(lits, args)| > 0 && Interleave(lits, args)[0] == lits[0][0]
  {
  }

  lemma EndsWithSuffix(x: string, t: string)
    ensures EndsWith(x + t, t)
  {
    assert (x + t)[|x|..] == t;
  }

  lemma EndsWithExtend(x: string, y: string, t: string)
    requires EndsWith(y, t)
    ensures EndsWith(x + y, t)
  {
    assert (x + y)[|x + y| - |t|..] == y[|y| - |t|..];
  }

  /** Formatted text ends with the last argument followed by the last literal piece. */
  lemma {:induction false} InterleaveEnds(lits: seq<string>, args: seq<string>)
    requires |lits| == |args| + 1 && |args| > 0
    ensures EndsWith(Interleave(lits, args), args[|args| - 1] + lits[|args|])
  {
    var e := args[|args| - 1] + lits[|args|];
    var tail := Interleave(lits[1..], args[1..]);
    assert Interleave(lits, args) == lits[0] + args[0] + tail;
    if |args| == 1 {
      assert tail == lits[1];
      assert lits[0] + args[0] + lits[1] == lits[0] + e;
      EndsWithSuffix(lits[0], e);
    } else {
      InterleaveEnds(lits[1..], args[1..]);
      assert args[1..][|args| - 2] + lits[1..][|args| - 1] == e;
      EndsWithExtend(lits[0] + args[0], tail, e);
    }
  }

  /**
    What `std::cout << s.data()` prints: the characters before the first
    NUL, the terminator of a C string.
   */
  function CString(s: string): (r: string)
    ensures r <= s
    ensures forall i :: 0 <= i < |r| ==> r[i] != '\0'
    ensures |r| < |s| ==> s[|r|] == '\0'
  {
    if |s| == 0 || s[0] == '\0' then "" else [s[0]] + CString(s[1..])
  }

  /** s ends with t. */
  predicate EndsWith(s: string, t: string)
  {
    |t| <= |s| && s[|s| - |t|..] == t
  }
}
